=== FILE: README.md ===
# GlaciersGEE in Dafny

A model of the per-glacier extraction pipeline of GlaciersGEE. The pipeline
reads glacier inventories and joins them, then works through a list of GLIMS
ids one at a time. For each id it queries the glacier's attributes and asks
Google Earth Engine to export elevation rasters and Landsat scenes into Google
Drive folders named after the glacier. It records what it asked for in a local
log file.

The model has one module per concern:

| module | file | models |
|---|---|---|
| `Prelude` | `prelude.dfy` | `Option`, `Result` and the Python exceptions the code raises |
| `Dates` | `dates.dfy` | ISO `YYYY-MM-DD` dates: ordering, `date.fromisoformat`, formatting |
| `Remote` | `remote.dfy` | The Drive and Earth Engine services, and the trace of every request |
| `Drive` | `drive.dfy` | `src/drive.py`: listing queries, `get_parent_folder_id`, `create_folder`, `get_folder_ids` |
| `Sensors` | `sensors.dfy` | The Landsat 8/7/5 date windows of `ee_download`, as written and as evidently intended |
| `Catalog` | `catalog.dfy` | `src/query.py`: chunked reader, de-duplication, valley filter, `id_query`; and `prep_joined` |
| `Gee` | `gee.dfy` | `src/gee.py`: `ee_download`: GMTED early exit, scene selection, folder provisioning, log, exports |
| `Pipeline` | `pipeline.dfy` | `src/main.py`: id splitting, `single_glacier`, ordered dispatch in `run_pipeline` |

Remote side effects are modelled as events appended to a trace inside a
`Session`. The events are `ListFolders`, `NewFolder` and `Export`. The
remote side's answers are parameters of a `Service`:
- the listing returns a fixed, non-empty sequence of pages for each query
  string;
- the id of a created folder is a function of the trace position of its
  create request.

Earth Engine collections are given as sequences of scenes already restricted
to the glacier's region. Each scene has an asset id, an acquisition date and a
cloud score.

`ee_download` takes a `Revision` parameter. `AsWritten` follows the source
line by line; `Corrected` applies the fixes listed under Findings. The
pipeline uses `Corrected`. On the GMTED path, which is the only one
`single_glacier` reaches, the two revisions agree.

Four behaviours of the code are easy to miss; the model states each:
- `create_folder` never checks whether the folder exists. Every Landsat
  download creates a new glacier folder
  (`Gee.RepeatedDownloadsMakeDistinctFolders`).
- `get_parent_folder_id` reads only the first page of its listing, so a
  folder listed on a later page is not found
  (`Drive.LaterPagesAreNeverRead`).
- `single_glacier` is retried with no stop condition, so a glacier that
  fails does not let the batch move on. Against fixed remote answers every
  retry fails the same way, so the run never gets past that id. The model
  records that id as `stuck` and ends the run there.
- A missing log file gets only a row of column names. The glacier's record is
  never written (see Findings).

## Model

| member | source | states |
|---|---|---|
| Dates.Parse | src/gee.py:71 | `date.fromisoformat` accepts exactly a `YYYY-MM-DD` string that names a real calendar date; anything else is a `ValueError` |
| Dates.ParseOfFormat | src/gee.py:71 | Formatting a valid date and parsing it back gives the same date |
| Dates.FormatOfParse | src/gee.py:71 | A string that parses is exactly the format of its date, so the parse loses nothing |
| Drive.ClauseOfListQuery | src/drive.py:50 | Every listing query is the folder-mimeType prefix plus `and` plus a clause, and the clause can be recovered from the query |
| Drive.NameQueryInjective | src/drive.py:67 | Two name lookups send the same query exactly when they look up the same name |
| Drive.NameAndParentQueriesDiffer | src/drive.py:67-100 | A lookup by name never sends the same query as a listing of a parent's children |
| Drive.Matches | src/drive.py:102 | The dict built from one page maps every listed name, and no other, to the id of its last record |
| Drive.UpdateKeepsLastWins | src/drive.py:103 | `dict.update` with a later page keeps "last record wins" over all records read so far |
| Drive.LookupName | src/drive.py:68-70 | The lookup succeeds iff the page lists the name, gives the id of the name's last record, and otherwise raises `KeyError(name)` |
| Drive.GetParentFolderId | src/drive.py:62-70 | Exactly one listing request, by name, with no page token; the outcome depends on the first page only |
| Drive.LaterPagesAreNeverRead | src/drive.py:66-70 | A name that appears only on a later page still gives `KeyError` |
| Drive.Parents | src/drive.py:84-85 | The body has a `parents` entry iff the parent id is truthy, and the entry is exactly `[parentID]` |
| Drive.CreateFolder | src/drive.py:73-87 | One create request with the name and the folder mimeType, with no existence check; it returns the new folder's id |
| Drive.CreateIsNotIdempotent | src/drive.py:73-87 | Creating the same folder twice makes two create requests and two distinct folders |
| Drive.RequestsCarryTokens | src/drive.py:95-107 | The i-th listing request carries no token when i is 0, and otherwise the token of response i-1 |
| Drive.Drain | src/drive.py:95-107 | The loop reads pages up to and including the first page with no token, one request per page, and the map keeps each name's last id over all pages read |
| Drive.GetFolderIds | src/drive.py:90-112 | Succeeds iff some page has no token; then the trace gained exactly the requests for the pages read, and the map is the drained, optionally filtered map |
| Drive.KeepRequested | src/drive.py:109-110 | With a truthy id list, keeps exactly the listed names and their ids; `None` or an empty list keeps everything |
| Drive.FilterKeepsDrained | src/drive.py:109-112 | After the filter, every name maps to its last listed id, and only requested names remain when the filter applies |
| Sensors.L8WindowAsWritten | src/gee.py:71-76 | Landsat 8 is queried iff `endDate` is after 2013-01-01, and then from 2013-01-01 to `endDate` |
| Sensors.L7WindowAsWritten | src/gee.py:95-104 | The Landsat 7 window starts at the earlier of `begDate` and 1999-01-01 and ends at `endDate` |
| Sensors.L5Window | src/gee.py:117-126 | The Landsat 5 window starts at `begDate` and ends at the earlier of `endDate` and 2012-05-01 |
| Sensors.WindowIsIntersection | src/gee.py:71-126 | Corrected, a date is in a sensor's window iff it is in the requested range and the sensor is operational on that date |
| Sensors.EarlyRangeSelectsNothing | src/gee.py:71-104 | A range that ends before a sensor's period begins admits no date for that sensor |
| Sensors.L8AsWrittenIgnoresBegin | src/gee.py:76 | As written, a Landsat 8 scene before `begDate` is admitted |
| Sensors.L8AsWrittenUnboundForEarlyRange | src/gee.py:71-90 | As written, a range ending by 2013-01-01 binds no Landsat 8 window; corrected, that window admits nothing |
| Sensors.L7AsWrittenAgreesOnlyAtLaunch | src/gee.py:95-104 | The as-written Landsat 7 window equals the intended one iff `begDate` is 1999-01-01 |
| Sensors.L7AsWrittenInverted | src/gee.py:95-104 | As written, a 2015 request admits a 2000 scene, and a 1990 request admits a scene from before Landsat 7 was operational |
| Catalog.FirstMissing | src/query.py:37 | A feature lacking a requested column raises `KeyError` on the first requested column, in `cols` order, that it lacks |
| Catalog.ProjectRow | src/query.py:36-37 | The projected row holds the geometry and every requested column with the feature's value |
| Catalog.BlocksCount | src/query.py:34-41 | The reader yields one chunk per full period of `chunksize` features; the trailing partial chunk is dropped |
| Catalog.KeptIffBlocks | src/query.py:35 | Block by block, "every kept feature has the columns" is the same as checking every feature whose `(k + 1) % chunksize` is non-zero |
| Catalog.Reader | src/query.py:26-41 | The generator succeeds iff every kept feature has the requested columns and every yielded chunk is non-empty and has `glac_id`; its chunks are the consecutive blocks of the input |
| Catalog.DedupLastSpec | src/query.py:40 | `drop_duplicates(keep='last')` leaves one row per key, loses no key, adds no row, and keeps each key's last row |
| Catalog.DedupLastOfUnique | src/query.py:40 | Rows with distinct keys are left unchanged |
| Catalog.DedupLastIdempotent | src/query.py:61 | De-duplicating twice is the same as de-duplicating once |
| Catalog.DedupFirstSpec | src/query.py:139 | `drop_duplicates('glac_id')` on the join leaves one row per key, loses no key, adds no row, and keeps each key's first row |
| Catalog.DedupLastKeepsOrder | src/query.py:40 | The rows that survive `drop_duplicates(keep='last')` keep their order |
| Catalog.DedupFirstKeepsOrder | src/query.py:139 | The rows that survive `drop_duplicates('glac_id')` keep their order |
| Catalog.DropColumn | src/query.py:52 | Dropping `anlys_time` removes that column from every row and leaves everything else unchanged |
| Catalog.OpenGlimsShp | src/query.py:43-52 | Succeeds iff the reader succeeds, at least one chunk is yielded and `anlys_time` is requested; the table is the chunks appended in order, without `anlys_time` |
| Catalog.Where | src/query.py:106 | A row survives the filter iff it was in the table and satisfies the criterion |
| Catalog.WhereCount | src/query.py:106 | The number of rows kept equals the number of rows satisfying the criterion |
| Catalog.ToPointRow | src/query.py:108-111 | Only wanted columns are kept; longitude and latitude become a point geometry; other values are unchanged |
| Catalog.ReadWgms | src/query.py:95-111 | Succeeds iff the classification and coordinate columns are present; the columns are the wanted ones, minus the coordinates, plus `geometry` |
| Catalog.ReadWgmsRows | src/query.py:106-111 | The i-th output row is the point row of the i-th valley glacier (`PRIM_CLASSIFIC == 5`). So there is one output row per valley row, in order, every valley row's point row is present, and no other row is |
| Catalog.PrepJoined | src/main.py:21-28 | A table without `glac_id` raises `AttributeError` whatever the ids are. A plain string where the id list belongs is a `TypeError` from `isin`. Otherwise a joined row is kept iff its `glac_id` is in the id list, and the columns are unchanged |
| Catalog.IdQuery | src/query.py:158-172 | Succeeds iff the frame has `glac_id`, exactly one row carries the id, that row's geometry is a polygon, all three dropped columns are present, and either more than one column is left or the id is empty. A `KeyError` names a dropped column the frame lacks. With more than one column left, the map holds that row's attributes without the dropped columns, plus `coords` and `bbox`. With one column left the squeezed row is a string, and `dict` of it is empty for the empty id and a `ValueError` otherwise |
| Catalog.IdQueryKeepsId | src/query.py:162-170 | The map has `glac_id` iff more than one column is left after the drop, and then it holds the queried id |
| Gee.GlacierName | src/gee.py:168 | `str(glacierObject['glac_id'])`: `KeyError` when absent, the text itself for a text id |
| Gee.Select | src/gee.py:76-84 | A scene is selected iff it is in the collection, its date is in the window and its cloud score is below the tolerance |
| Gee.SelectKeepsOrder | src/gee.py:76-84 | The selected scenes keep the collection's order |
| Gee.ExportsFollowDates | src/gee.py:226-258 | The i-th scene export goes into the glacier's folder, at 30 m, named by the i-th recorded date |
| Gee.Windows | src/gee.py:71-126 | Corrected gives the three intended windows. As written, it fails iff `endDate` is not after 2013-01-01. Otherwise the L8 window starts at 2013-01-01 whatever `begDate` is, the L7 window starts at the earlier of `begDate` and 1999-01-01, and the L5 window ends at the earlier of `endDate` and 2012-05-05 |
| Gee.SelectScenes | src/gee.py:71-136 | An unparseable `endDate` or `begDate` is a `ValueError`. The selection succeeds iff both parse and, as written, `endDate` is after 2013-01-01. Each sensor's scenes are then its collection filtered through its window. Any other failure is the unbound Landsat 8 list |
| Gee.EeDownload | src/gee.py:10-67 | A missing `bbox` fails first; the remote service is never changed; a failure is never the listing running out |
| Gee.GmtedOnlyExportsElevation | src/gee.py:52-67 | With `gmted`, one lookup by the glacier's name, then one GMTED export into that folder; the object and the log are untouched; it fails with `KeyError` iff the name is not on the first page |
| Gee.AnnotateRecordsDates | src/gee.py:142-185 | The object gains exactly the keys `L8Dates`, `L7Dates`, `L5Dates`, `fileaddress` and `drivefile_id`, and every other key keeps its value. Each date list holds its sensor's selected dates, and the three read in order give every exported date. `fileaddress` is the glacier's name and `drivefile_id` the new folder's id |
| Gee.LandsatSucceeds | src/gee.py:71-202 | The Landsat branch fails only on the dates, on the unbound Landsat 8 list or on the glacier's name; provisioning, logging and exporting never fail |
| Gee.LandsatFolder | src/gee.py:172-185 | After the old trace, the first request looks up the parent folder by name. The last request before the exports creates a folder named after the glacier, and the id the object records as `drivefile_id` is that new folder's |
| Gee.LandsatExports | src/gee.py:208-259 | The trace ends with exactly one export per requested image, every one into the glacier's folder, the SRTM export first when `dem` is set |
| Gee.LandsatLog | src/gee.py:187-202 | The log file exists afterwards. With the file present, or corrected, the object's record is the last line and existing lines are kept. As written, a missing file holds only the object's column names |
| Gee.ExportNamesAreRecordedDates | src/gee.py:142-259 | With `landsat`, whenever scenes are selected and the name renders, the call succeeds and the trace ends with one export per recorded date, in the order L8, L7, L5, each into the folder the object records |
| Gee.CorrectedSelectsRequestedScenes | src/gee.py:71-136 | Corrected, a scene of a sensor's collection is selected iff it is in the requested range, its sensor is operational then, and it is clear enough |
| Gee.SelectionIsRequested | src/gee.py:71-136 | Corrected, a scene is in the selection of any sensor iff some sensor's collection holds it and it is requested for that sensor |
| Gee.CorrectedExportsRequestedScenes | src/gee.py:71-259 | Corrected, with `landsat`, any parseable range succeeds. Every requested scene of every collection is exported into the glacier's folder, named by its date, and every export other than the SRTM one is of such a scene |
| Gee.AsWrittenFailsOnEarlyRange | src/gee.py:71-147 | As written, an `endDate` not after 2013-01-01 raises `NameError`. Corrected, the same call succeeds with no Landsat 8 dates |
| Gee.ProvisionCreatesGlacierFolder | src/gee.py:172-185 | Look up the parent by name, create it only if the lookup fails, then always create the glacier's folder under it and return its id |
| Gee.RepeatedDownloadsMakeDistinctFolders | src/gee.py:172-185 | A later download of the same glacier, after any other requests on the same service, provisions a folder with a different id from the first |
| Gee.CorrectedLogKeepsEveryRecord | src/gee.py:187-202 | Corrected, the record is always the last line and earlier lines are kept; a new or empty file gets a header first |
| Gee.AsWrittenLosesFirstRecord | src/gee.py:197-202 | As written, a missing file ends up with only the column names and no record |
| Gee.LogAppendsRecords | src/gee.py:188-195 | Once the log file has a line, each later call appends its glacier's record, in call order |
| Gee.CorrectedLogOfRun | src/gee.py:187-202 | Corrected, a run starting without a log file leaves one header, from the first glacier's columns, then every glacier's record in order |
| Gee.AsWrittenLogOfRun | src/gee.py:187-202 | As written, the same run leaves the header and every record except the first glacier's |
| Pipeline.JoinSplit | src/main.py:66-69 | Joining the split pieces with the delimiter gives back the file text exactly |
| Pipeline.SplitPiecesLackDelimiter | src/main.py:69 | No piece contains the delimiter |
| Pipeline.SplitCount | src/main.py:69 | There is one more piece than there are non-overlapping occurrences |
| Pipeline.EmptyPiecesKept | src/main.py:69 | Empty pieces are kept: the delimiter alone splits into two empty ids, and the empty text into one |
| Pipeline.SplitJoin | src/main.py:69 | With a one-character delimiter that no id contains, splitting the joined ids gives the ids back |
| Pipeline.ResolveIds | src/main.py:66-71 | With a truthy delimiter the ids are the file split on it, and a list given instead of a file is a `TypeError` from `open`. Otherwise the input is passed on unchanged: a list as the ids, a file's path as a plain string |
| Pipeline.SingleGlacierIsGmted | src/main.py:31-50 | `single_glacier` always takes the GMTED path. A failed query fails the call, and a map without `glac_id` is a `KeyError`. Otherwise it succeeds iff the id is on the first page of its lookup, and then it makes exactly a lookup and a GMTED export for the id and leaves the log alone |
| Pipeline.DispatchInOrder | src/main.py:75-76 | Ids are dispatched strictly in list order, duplicates included; the run stops exactly at the first failing id |
| Pipeline.DispatchRequests | src/main.py:75-76 | Each finished id contributed its two requests, in order, and the log is not written |
| Pipeline.RunExportsOncePerId | src/main.py:73-76 | One GMTED export per finished id, into the folder named by that id, in list order; a stuck id is one whose call fails |
| Pipeline.DispatchAll | src/main.py:75-76 | The `for` loop computes exactly the reference dispatch |
| Pipeline.RunPipeline | src/main.py:55-76 | A list with a truthy delimiter fails with `TypeError`. A table without `glac_id` then fails with `AttributeError`, and a file path with a falsy delimiter with `TypeError` from `isin`. Otherwise the run is the ordered dispatch over the resolved ids |

## Left out

- Authentication (`start_service`, `authenticate`, `ee.Initialize`), token files and `download_file`. These are OAuth and byte I/O.
- Earth Engine image algebra: `cloudscore`, `clip`, band `select`, `reduceRegion`, `getInfo`, `task.start`. A collection is a sequence of scenes with a given cloud score, and an export is an event in the trace.
- The geometry of `id_query`: the exterior coordinates and the scaled envelope are opaque functions of the polygon ring. Floating-point shapely geometry is outside the model.
- File reading and writing: fiona/geopandas/pandas I/O, `to_file`, `os.mkdir`, and the CSV formatting of the log. The id file is given by its text, and the log is a sequence of lines.
- The spatial-join predicate of `sjoin` and the merge with the point file in `open_glims_shp`. Only the de-duplication they feed is modelled (`Catalog.DedupFirstSpec`, `Catalog.DedupLastSpec`).
- `read_glims_gdf`, `load_train_set`, the `gdf_fp` branch of `read_wgms_gdf` and the merging of several WGMS files. These only read files.
- The tenacity retry decorator on `single_glacier`. Its backoff lives in a library outside the model. A failing glacier stops the modelled run (`Run.stuck`), which is where the unbounded retry leaves the real run.
- `run.py`, `scripts/glacier.py`, `setup.py` and the progress `print`s.
- `get_folder_ids` loops forever when every page carries a token. The model's listing is finite, and the model reports this case as `PagesExhausted` (`Drive.GetFolderIds`).
- Gee.GlacierName: `str()` of a numeric id is rendered as a decimal integer. `str()` of any other non-text value is reported as `NotRenderable` rather than Python's text.
- Dates.Parse: accepts only `YYYY-MM-DD`, which is what `date.fromisoformat` accepts before Python 3.11. Later versions also accept other ISO 8601 forms.
- A failed call returns only its error, not a session. Requests sent before the failure are missing from the modelled trace, for example the name lookup that precedes a GMTED `KeyError`.
- Catalog.Reader: returns the feature blocks it yields. Building each block's GeoDataFrame (projection and `drop_duplicates`) is `Catalog.ChunkTable`, applied by `Catalog.OpenGlimsShp`.

## Findings

| source | as written | input that shows it | evidently intended | confidence | as-written member | corrected member |
|---|---|---|---|---|---|---|
| src/gee.py:76 | The Landsat 8 collection is filtered from 2013-01-01 whatever `begDate` is | `begDate` 2015-01-01, `endDate` 2016-01-01: a scene of 2013-06-01 is exported | Start at the later of `begDate` and 2013-01-01 | high; not executed | Sensors.L8AsWrittenIgnoresBegin | Sensors.WindowIsIntersection |
| src/gee.py:95-104 | Landsat 7 starts at `begDate` when it is before 1999-01-01, and at 1999-01-01 otherwise: the earlier of the two | `begDate` 2015-01-01 admits a scene of 2000-01-01; `begDate` 1990-01-01 queries from 1990 | Start at the later of `begDate` and 1999-01-01 | high; not executed | Sensors.L7AsWrittenInverted | Sensors.WindowIsIntersection |
| src/gee.py:71-147 | `collectionSizeL8` is bound only inside `if endDate > 2013-01-01`, but it is read unconditionally at line 147 | `endDate` 2012-01-01 with `gmted=False`: `NameError` after both other collections are built | An empty Landsat 8 list | high; not executed | Gee.AsWrittenFailsOnEarlyRange | Gee.CorrectedExportsRequestedScenes |
| src/gee.py:197-202 | When `glacierInfo.csv` is missing, `csv.writer(f).writerow(glacierObject)` writes the dict's keys and nothing else | The first glacier of a fresh directory: the file holds one row of column names, and that glacier's record is never written | A header and then the record, as the empty-file branch at lines 191-193 does | medium; not executed | Gee.AsWrittenLogOfRun | Gee.CorrectedLogOfRun |

=== FILE: catalog.dfy ===
/** The glacier catalog of `src/query.py`: the chunked shapefile reader and
    its de-duplication, the valley-glacier filter, the id filter the pipeline
    applies, and the attribute map `id_query` returns. Geometry is carried
    symbolically; the floating-point work of shapely is not modelled. */
module Catalog {
  import opened Prelude

  datatype Point = Point(x: real, y: real)

  /** A cell of a (Geo)DataFrame. */
  datatype Value =
    | Null
    | Text(s: string)
    | Number(n: int)
    | Polygon(ring: seq<Point>)
    | PointGeom(lon: Value, lat: Value)
    | Coords(points: seq<Point>)
    | ScaledEnvelope(ring: seq<Point>, scale: real)
    | Texts(items: seq<string>)

  /** One row: column name to cell. */
  type Row = map<string, Value>

  /** A frame: its column set and its rows in index order. */
  datatype Table = Table(columns: set<string>, rows: seq<Row>)

  ghost predicate WellFormed(t: Table)
  {
    forall i :: 0 <= i < |t.rows| ==> t.rows[i].Keys == t.columns
  }

  const GlacId: string := "glac_id"

  /** The cell of a column, or Null when the row lacks it. */
  function Cell(row: Row, col: string): Value
  {
    if col in row then row[col] else Null
  }

  /** The values a column takes over some rows. */
  function KeySet(rows: seq<Row>, key: string): set<Value>
  {
    set i | 0 <= i < |rows| :: Cell(rows[i], key)
  }

  lemma KeySetAppend(a: seq<Row>, b: seq<Row>, key: string)
    ensures KeySet(a + b, key) == KeySet(a, key) + KeySet(b, key)
  {
    forall v | v in KeySet(a + b, key) ensures v in KeySet(a, key) + KeySet(b, key) {
      var i :| 0 <= i < |a + b| && Cell((a + b)[i], key) == v;
      if i < |a| {
        assert Cell(a[i], key) == v;
      } else {
        assert Cell(b[i - |a|], key) == v;
      }
    }
    forall v | v in KeySet(a, key) + KeySet(b, key) ensures v in KeySet(a + b, key) {
      if v in KeySet(a, key) {
        var i :| 0 <= i < |a| && Cell(a[i], key) == v;
        assert Cell((a + b)[i], key) == v;
      } else {
        var i :| 0 <= i < |b| && Cell(b[i], key) == v;
        assert Cell((a + b)[|a| + i], key) == v;
      }
    }
  }

  lemma KeySetSingle(x: Row, key: string)
    ensures KeySet([x], key) == {Cell(x, key)}
  {
    assert Cell([x][0], key) == Cell(x, key);
  }

  // ---------------------------------------------------------------------
  // drop_duplicates
  // ---------------------------------------------------------------------

  /** No later row has the same key. */
  predicate IsLastKey(rows: seq<Row>, key: string, i: int)
    requires 0 <= i < |rows|
  {
    forall j :: i < j < |rows| ==> Cell(rows[j], key) != Cell(rows[i], key)
  }

  /** No earlier row has the same key. */
  predicate IsFirstKey(rows: seq<Row>, key: string, i: int)
    requires 0 <= i < |rows|
  {
    forall j :: 0 <= j < i ==> Cell(rows[j], key) != Cell(rows[i], key)
  }

  ghost predicate UniqueKeys(rows: seq<Row>, key: string)
  {
    forall i, j :: 0 <= i < j < |rows| ==> Cell(rows[i], key) != Cell(rows[j], key)
  }

  /** `drop_duplicates(key, keep='last')`: a row stays when no later row
      shares its key; order is kept. */
  function DedupLast(rows: seq<Row>, key: string): (r: seq<Row>)
    ensures |r| <= |rows|
  {
    if rows == [] then []
    else if IsLastKey(rows, key, 0) then [rows[0]] + DedupLast(rows[1..], key)
    else DedupLast(rows[1..], key)
  }

  /** `drop_duplicates(key)` (keep='first'): a row stays when no earlier row
      shares its key; order is kept. */
  function DedupFirst(rows: seq<Row>, key: string): (r: seq<Row>)
    ensures |r| <= |rows|
  {
    if rows == [] then []
    else
      var n := |rows| - 1;
      if IsFirstKey(rows, key, n) then DedupFirst(rows[..n], key) + [rows[n]]
      else DedupFirst(rows[..n], key)
  }

  /** Keeping the last row per key leaves unique keys, loses no key, invents
      no row, and keeps every row that is the last with its key. */
  lemma {:induction false} DedupLastSpec(rows: seq<Row>, key: string)
    ensures var r := DedupLast(rows, key);
            && UniqueKeys(r, key)
            && KeySet(r, key) == KeySet(rows, key)
            && (forall x :: x in r ==> x in rows)
            && (forall i :: 0 <= i < |rows| && IsLastKey(rows, key, i) ==> rows[i] in r)
  {
    if rows != [] {
      var rest := DedupLast(rows[1..], key);
      DedupLastSpec(rows[1..], key);
      assert rows == [rows[0]] + rows[1..];
      KeySetAppend([rows[0]], rows[1..], key);
      KeySetAppend([rows[0]], rest, key);
      KeySetSingle(rows[0], key);
      assert forall i :: 1 <= i < |rows| && IsLastKey(rows, key, i) ==> IsLastKey(rows[1..], key, i - 1);
      if IsLastKey(rows, key, 0) {
        assert Cell(rows[0], key) !in KeySet(rows[1..], key);
      }
    }
  }

  /** The same for keeping the first row per key. */
  lemma {:induction false} DedupFirstSpec(rows: seq<Row>, key: string)
    ensures var r := DedupFirst(rows, key);
            && UniqueKeys(r, key)
            && KeySet(r, key) == KeySet(rows, key)
            && (forall x :: x in r ==> x in rows)
            && (forall i :: 0 <= i < |rows| && IsFirstKey(rows, key, i) ==> rows[i] in r)
  {
    if rows != [] {
      var n := |rows| - 1;
      var init := DedupFirst(rows[..n], key);
      DedupFirstSpec(rows[..n], key);
      assert rows == rows[..n] + [rows[n]];
      KeySetAppend(rows[..n], [rows[n]], key);
      KeySetAppend(init, [rows[n]], key);
      KeySetSingle(rows[n], key);
      assert forall i :: 0 <= i < n && IsFirstKey(rows, key, i) ==> IsFirstKey(rows[..n], key, i);
      if IsFirstKey(rows, key, n) {
        assert Cell(rows[n], key) !in KeySet(rows[..n], key);
      }
    }
  }

  /** Keeping the last row per key keeps the surviving rows in their order. */
  lemma {:induction false} DedupLastKeepsOrder(rows: seq<Row>, key: string)
    ensures IsSubsequence(DedupLast(rows, key), rows)
  {
    if rows != [] {
      DedupLastKeepsOrder(rows[1..], key);
      if IsLastKey(rows, key, 0) {
        assert ([rows[0]] + DedupLast(rows[1..], key))[1..] == DedupLast(rows[1..], key);
      }
    }
  }

  /** So does keeping the first. */
  lemma {:induction false} DedupFirstKeepsOrder(rows: seq<Row>, key: string)
    ensures IsSubsequence(DedupFirst(rows, key), rows)
  {
    if rows != [] {
      var n := |rows| - 1;
      DedupFirstKeepsOrder(rows[..n], key);
      SubsequenceSnoc(DedupFirst(rows[..n], key), rows[..n], rows[n]);
      assert rows[..n] + [rows[n]] == rows;
    }
  }

  /** Rows whose keys are already unique pass through unchanged. */
  lemma {:induction false} DedupLastOfUnique(rows: seq<Row>, key: string)
    requires UniqueKeys(rows, key)
    ensures DedupLast(rows, key) == rows
  {
    if rows != [] {
      assert UniqueKeys(rows[1..], key);
      DedupLastOfUnique(rows[1..], key);
      assert IsLastKey(rows, key, 0);
      assert rows == [rows[0]] + rows[1..];
    }
  }

  lemma DedupLastIdempotent(rows: seq<Row>, key: string)
    ensures DedupLast(DedupLast(rows, key), key) == DedupLast(rows, key)
  {
    DedupLastSpec(rows, key);
    DedupLastOfUnique(DedupLast(rows, key), key);
  }

  // ---------------------------------------------------------------------
  // Row filters
  // ---------------------------------------------------------------------

  /** The row predicates the source filters frames by. */
  datatype Criterion =
    | IdIs(id: string)            // `frame.glac_id == id`
    | IdIn(ids: seq<string>)      // `frame.glac_id.isin(ids)`
    | Valley                      // `frame.PRIM_CLASSIFIC == 5`

  predicate Holds(c: Criterion, row: Row)
  {
    match c
    case IdIs(id) => Cell(row, GlacId) == Text(id)
    case IdIn(ids) => Cell(row, GlacId).Text? && Cell(row, GlacId).s in ids
    case Valley => Cell(row, "PRIM_CLASSIFIC") == Number(5)
  }

  /** Boolean indexing `frame[mask]`: the rows the criterion holds of, in order. */
  function Where(rows: seq<Row>, c: Criterion): (r: seq<Row>)
    ensures |r| <= |rows|
    ensures forall x :: x in r <==> x in rows && Holds(c, x)
  {
    if rows == [] then []
    else (if Holds(c, rows[0]) then [rows[0]] else []) + Where(rows[1..], c)
  }

  function CountWhere(rows: seq<Row>, c: Criterion): nat
  {
    if rows == [] then 0
    else (if Holds(c, rows[0]) then 1 else 0) + CountWhere(rows[1..], c)
  }

  lemma {:induction false} WhereCount(rows: seq<Row>, c: Criterion)
    ensures |Where(rows, c)| == CountWhere(rows, c)
  {
    if rows != [] {
      WhereCount(rows[1..], c);
    }
  }

  // ---------------------------------------------------------------------
  // open_glims_shp.reader
  // ---------------------------------------------------------------------

  /** A shapefile record: geometry and properties. */
  datatype Feature = Feature(geometry: Value, properties: map<string, Value>)

  predicate HasColumns(f: Feature, cols: seq<string>)
  {
    forall c :: c in cols ==> c in f.properties
  }

  /** The first requested column a feature lacks: the key the dict
      comprehension raises on, since it walks `cols` in order. */
  function FirstMissing(f: Feature, cols: seq<string>): (c: string)
    requires !HasColumns(f, cols)
    ensures c in cols && c !in f.properties
    ensures exists i :: 0 <= i < |cols| && cols[i] == c && forall j :: 0 <= j < i ==> cols[j] in f.properties
  {
    if cols[0] !in f.properties then cols[0] else FirstMissing(f, cols[1..])
  }

  /** The columns of a frame built from projected features. */
  function ChunkColumns(cols: seq<string>): set<string>
  {
    {"geometry"} + Elements(cols)
  }

  /** A feature as a frame row: its geometry plus exactly the requested
      properties (a property named `geometry` overrides the shape, as in
      `GeoDataFrame.from_features`). */
  function ProjectRow(f: Feature, cols: seq<string>): (r: Row)
    ensures HasColumns(f, cols) ==> r.Keys == ChunkColumns(cols)
    ensures forall c :: c in cols && c in f.properties ==> c in r && r[c] == f.properties[c]
    ensures "geometry" in r && ("geometry" !in cols ==> r["geometry"] == f.geometry)
  {
    map["geometry" := f.geometry] + map c | c in cols && c in f.properties :: f.properties[c]
  }

  function ProjectRows(fs: seq<Feature>, cols: seq<string>): (r: seq<Row>)
    ensures |r| == |fs|
  {
    if fs == [] then [] else ProjectRows(fs[..|fs| - 1], cols) + [ProjectRow(fs[|fs| - 1], cols)]
  }

  function Abs(c: int): nat
  {
    if c < 0 then -c else c
  }

  /** Feature `k` is accumulated, not consumed by a yield, when `(k + 1) %
      chunksize` is non-zero. Python's floored remainder and Dafny's are
      zero for the same arguments, so the test is taken modulo `|chunksize|`. */
  predicate Kept(k: nat, chunksize: int)
    requires chunksize != 0
  {
    (k + 1) % Abs(chunksize) != 0
  }

  /** The yield period; a zero chunk size fails on the first feature, so with
      no features its period does not matter. */
  function Period(chunksize: int): (p: nat)
    ensures p >= 1
  {
    if chunksize == 0 then 1 else Abs(chunksize)
  }

  /** The partition the reader performs from feature `start` on:
      consecutive blocks of `p` features, each yielding its first `p - 1`,
      with a trailing remainder of fewer than `p` features never yielded. */
  function BlocksFrom(fs: seq<Feature>, p: nat, start: nat): (bs: seq<seq<Feature>>)
    requires p >= 1 && start <= |fs|
    decreases |fs| - start
  {
    if |fs| - start < p then [] else [fs[start..start + p - 1]] + BlocksFrom(fs, p, start + p)
  }

  function Blocks(fs: seq<Feature>, p: nat): (bs: seq<seq<Feature>>)
    requires p >= 1
  {
    BlocksFrom(fs, p, 0)
  }

  /** `n` features give `n / p` chunks. */
  lemma {:induction false} BlocksFromCount(fs: seq<Feature>, p: nat, start: nat)
    requires p >= 1 && start <= |fs|
    ensures |BlocksFrom(fs, p, start)| * p <= |fs| - start < (|BlocksFrom(fs, p, start)| + 1) * p
    decreases |fs| - start
  {
    var m := |BlocksFrom(fs, p, start)|;
    if |fs| - start >= p {
      BlocksFromCount(fs, p, start + p);
      assert m == |BlocksFrom(fs, p, start + p)| + 1;
      assert m * p == |BlocksFrom(fs, p, start + p)| * p + p;
      assert (m + 1) * p == (|BlocksFrom(fs, p, start + p)| + 1) * p + p;
    }
  }

  lemma BlocksCount(fs: seq<Feature>, p: nat)
    requires p >= 1
    ensures |Blocks(fs, p)| == |fs| / p
  {
    BlocksFromCount(fs, p, 0);
    var m := |Blocks(fs, p)|;
    DivModUnique(|fs|, p, m, |fs| - m * p);
  }

  /** One yielded chunk: the block's projected rows, de-duplicated by id. */
  function ChunkTable(block: seq<Feature>, cols: seq<string>): Table
  {
    Table(ChunkColumns(cols), DedupLast(ProjectRows(block, cols), GlacId))
  }

  function ChunkTables(bs: seq<seq<Feature>>, cols: seq<string>): (ts: seq<Table>)
    ensures |ts| == |bs|
  {
    if bs == [] then [] else [ChunkTable(bs[0], cols)] + ChunkTables(bs[1..], cols)
  }

  /** When the reader runs to completion: no `% 0`, every accumulated
      feature has the requested properties, and a yield builds a non-empty
      frame that has a `glac_id` column. */
  ghost predicate ReaderOk(fs: seq<Feature>, cols: seq<string>, chunksize: int)
  {
    && (|fs| > 0 ==> chunksize != 0)
    && (chunksize != 0 ==> forall k :: 0 <= k < |fs| && Kept(k, chunksize) ==> HasColumns(fs[k], cols))
    && (|fs| >= Period(chunksize) ==> Period(chunksize) >= 2 && GlacId in cols)
  }

  /** The generator, drained. It returns, for each yield in order, the
      features accumulated since the previous one (the frame yielded is
      `ChunkTable` of them): block `j` of the partition, with a yield exactly
      at each `k` where `(k + 1) % chunksize == 0`. */
  method Reader(fs: seq<Feature>, cols: seq<string>, chunksize: int) returns (r: Result<seq<seq<Feature>>>)
    ensures r.Success? <==> ReaderOk(fs, cols, chunksize)
    ensures r.Success? ==> r.value == Blocks(fs, Period(chunksize))
  {
    if chunksize == 0 {
      if |fs| == 0 {
        return Success([]);
      }
      return Failure(ZeroDivisionError);
    }
    var p := Abs(chunksize);
    var chunks: seq<seq<Feature>> := [];
    var out: seq<Feature> := [];
    ghost var base, closed := 0, 0;
    var k := 0;
    while k < |fs|
      invariant ReaderInv(fs, cols, chunksize, base, closed, k, out, chunks)
    {
      ModInBlock(base, closed, k, p);
      if (k + 1) % p != 0 {
        if !HasColumns(fs[k], cols) {
          return Failure(KeyError(FirstMissing(fs[k], cols)));
        }
        KeepStep(fs, cols, chunksize, base, closed, k, out, chunks);
        out := out + [fs[k]];
      } else {
        if |out| == 0 || GlacId !in cols {
          YieldFails(fs, cols, chunksize, base, closed, k, out, chunks);
          return Failure(KeyError(GlacId));
        }
        YieldStep(fs, cols, chunksize, base, closed, k, out, chunks);
        chunks := chunks + [out];
        out := [];
        base, closed := k + 1, closed + 1;
      }
      k := k + 1;
    }
    ReaderDone(fs, cols, chunksize, base, closed, out, chunks);
    r := Success(chunks);
  }

  /** `n * p`, by repeated addition. */
  function Times(n: nat, p: nat): nat
  {
    if n == 0 then 0 else Times(n - 1, p) + p
  }

  lemma {:induction false} TimesIsProduct(n: nat, p: nat)
    ensures Times(n, p) == n * p
  {
    if n > 0 {
      TimesIsProduct(n - 1, p);
    }
  }

  /** Every feature in `fs[lo..hi]` has the requested properties. */
  ghost predicate AllHaveColumns(fs: seq<Feature>, cols: seq<string>, lo: nat, hi: nat)
    requires lo <= hi <= |fs|
  {
    forall i :: lo <= i < hi ==> HasColumns(fs[i], cols)
  }

  /** Block by block from `start`: every feature a block accumulates, and
      every feature of the trailing remainder, has the requested properties. */
  ghost predicate BlocksHaveColumns(fs: seq<Feature>, cols: seq<string>, p: nat, start: nat)
    requires p >= 1 && start <= |fs|
    decreases |fs| - start
  {
    if |fs| - start < p then AllHaveColumns(fs, cols, start, |fs|)
    else AllHaveColumns(fs, cols, start, start + p - 1) && BlocksHaveColumns(fs, cols, p, start + p)
  }

  /** The reader's state before feature `k`: `closed` blocks are yielded
      and the current one starts at `base`; `out` holds its features so far. */
  ghost predicate ReaderInv(fs: seq<Feature>, cols: seq<string>, chunksize: int,
                            base: nat, closed: nat, k: nat, out: seq<Feature>, chunks: seq<seq<Feature>>)
  {
    var p := Abs(chunksize);
    && chunksize != 0
    && base <= k <= |fs| && k - base < p
    && base == Times(closed, p)
    && out == fs[base..k]
    && Blocks(fs, p) == chunks + BlocksFrom(fs, p, base)
    && (BlocksHaveColumns(fs, cols, p, 0) <==> BlocksHaveColumns(fs, cols, p, base))
    && AllHaveColumns(fs, cols, base, k)
    && (base > 0 ==> p >= 2 && GlacId in cols)
  }

  /** Accumulating feature `k` keeps the invariant. */
  lemma KeepStep(fs: seq<Feature>, cols: seq<string>, chunksize: int,
                 base: nat, closed: nat, k: nat, out: seq<Feature>, chunks: seq<seq<Feature>>)
    requires ReaderInv(fs, cols, chunksize, base, closed, k, out, chunks) && k < |fs|
    requires k + 1 < base + Abs(chunksize) && HasColumns(fs[k], cols)
    ensures ReaderInv(fs, cols, chunksize, base, closed, k + 1, out + [fs[k]], chunks)
  {
    assert fs[base..k + 1] == fs[base..k] + [fs[k]];
  }

  /** Yielding at the end of a block moves that block from the partition
      still to come to the chunks produced. */
  lemma YieldStep(fs: seq<Feature>, cols: seq<string>, chunksize: int,
                  base: nat, closed: nat, k: nat, out: seq<Feature>, chunks: seq<seq<Feature>>)
    requires ReaderInv(fs, cols, chunksize, base, closed, k, out, chunks) && k < |fs|
    requires k + 1 == base + Abs(chunksize) && |out| > 0 && GlacId in cols
    ensures ReaderInv(fs, cols, chunksize, k + 1, closed + 1, k + 1, [], chunks + [out])
  {
  }

  /** A yield over an empty block, or into a frame with no `glac_id`
      column, stops the reader, and the reader cannot run to completion on
      such input. */
  lemma YieldFails(fs: seq<Feature>, cols: seq<string>, chunksize: int,
                   base: nat, closed: nat, k: nat, out: seq<Feature>, chunks: seq<seq<Feature>>)
    requires ReaderInv(fs, cols, chunksize, base, closed, k, out, chunks) && k < |fs|
    requires k + 1 == base + Abs(chunksize) && (|out| == 0 || GlacId !in cols)
    ensures !ReaderOk(fs, cols, chunksize)
  {
  }

  /** Once every feature is read, the partial block is dropped and the
      chunks are exactly the partition's blocks. */
  lemma ReaderDone(fs: seq<Feature>, cols: seq<string>, chunksize: int,
                   base: nat, closed: nat, out: seq<Feature>, chunks: seq<seq<Feature>>)
    requires ReaderInv(fs, cols, chunksize, base, closed, |fs|, out, chunks)
    ensures ReaderOk(fs, cols, chunksize)
    ensures chunks == Blocks(fs, Period(chunksize))
  {
    var p := Abs(chunksize);
    assert BlocksFrom(fs, p, base) == [];
    assert BlocksHaveColumns(fs, cols, p, base);
    KeptIffBlocks(fs, cols, chunksize, 0, 0);
  }

  /** From a block boundary on, the block-wise condition is exactly the
      source's: every feature `k` with `(k + 1) % chunksize != 0` has the
      requested properties. */
  lemma {:induction false} KeptIffBlocks(fs: seq<Feature>, cols: seq<string>, chunksize: int,
                                         start: nat, n: nat)
    requires chunksize != 0 && start <= |fs| && start == Times(n, Abs(chunksize))
    ensures BlocksHaveColumns(fs, cols, Abs(chunksize), start)
            <==> forall k :: start <= k < |fs| && Kept(k, chunksize) ==> HasColumns(fs[k], cols)
    decreases |fs| - start
  {
    var p := Abs(chunksize);
    if |fs| - start < p {
      forall k | start <= k < |fs| ensures Kept(k, chunksize) {
        ModInBlock(start, n, k, p);
      }
    } else {
      KeptIffBlocks(fs, cols, chunksize, start + p, n + 1);
      forall k | start <= k < start + p ensures Kept(k, chunksize) <==> k < start + p - 1 {
        ModInBlock(start, n, k, p);
      }
    }
  }

  lemma MulAtLeast(a: int, p: int)
    requires a >= 1 && p > 0
    ensures a * p >= p
  {
  }

  lemma DivModUnique(x: int, p: int, q: int, r: int)
    requires p > 0 && 0 <= r < p && x == q * p + r
    ensures x % p == r && x / p == q
  {
    var q', r' := x / p, x % p;
    assert x == q' * p + r';
    assert (q - q') * p == r' - r;
    if q - q' >= 1 {
      MulAtLeast(q - q', p);
    } else if q' - q >= 1 {
      MulAtLeast(q' - q, p);
    }
  }

  /** Inside the block that starts after `n` blocks of `p`, the only
      position whose successor is a multiple of `p` is the block's last. */
  lemma ModInBlock(base: nat, n: nat, k: nat, p: nat)
    requires p >= 1 && base == Times(n, p) && base <= k < base + p
    ensures (k + 1) % p == 0 <==> k + 1 == base + p
  {
    TimesIsProduct(n, p);
    DivModUnique(base + p, p, n + 1, 0);
    if k + 1 < base + p {
      DivModUnique(k + 1, p, n, k + 1 - base);
    }
  }

  // ---------------------------------------------------------------------
  // open_glims_shp
  // ---------------------------------------------------------------------

  function AllRows(ts: seq<Table>): seq<Row>
  {
    if ts == [] then [] else ts[0].rows + AllRows(ts[1..])
  }

  /** `frame.drop(columns=[col])` on the rows. */
  function DropColumn(rows: seq<Row>, col: string): (r: seq<Row>)
    ensures |r| == |rows|
    ensures forall i :: 0 <= i < |rows| ==> r[i] == rows[i] - {col}
  {
    if rows == [] then [] else [rows[0] - {col}] + DropColumn(rows[1..], col)
  }

  /** The chunks appended in yield order, then `anlys_time` dropped. The
      frame is never bound when no chunk is yielded. The merge with the
      point file that follows is not modelled; its `drop_duplicates` is
      `DedupLast`. */
  method OpenGlimsShp(fs: seq<Feature>, cols: seq<string>, chunksize: int) returns (r: Result<Table>)
    ensures r.Success? <==> ReaderOk(fs, cols, chunksize) && |fs| >= Period(chunksize) && "anlys_time" in cols
    ensures r.Success? ==>
              && r.value.columns == ChunkColumns(cols) - {"anlys_time"}
              && r.value.rows == DropColumn(AllRows(ChunkTables(Blocks(fs, Period(chunksize)), cols)), "anlys_time")
    ensures !ReaderOk(fs, cols, chunksize) || |fs| >= Period(chunksize) || r == Failure(NameError("glims"))
  {
    var chunks := Reader(fs, cols, chunksize);
    if chunks.Failure? {
      return Failure(chunks.error);
    }
    BlocksCount(fs, Period(chunksize));
    if |chunks.value| == 0 {
      return Failure(NameError("glims"));
    }
    if "anlys_time" !in cols {
      return Failure(KeyError("anlys_time"));
    }
    var glims := Table(ChunkColumns(cols), AllRows(ChunkTables(chunks.value, cols)));
    r := Success(Table(glims.columns - {"anlys_time"}, DropColumn(glims.rows, "anlys_time")));
  }

  // ---------------------------------------------------------------------
  // read_wgms_gdf
  // ---------------------------------------------------------------------

  const WantedCols: set<string> :=
    {"POLITICAL_UNIT", "NAME", "WGMS_ID", "LATITUDE", "LONGITUDE", "PRIM_CLASSIFIC", "GLIMS_ID"}

  /** One valley-glacier row: wanted columns only, longitude and latitude
      replaced by a point geometry. */
  function ToPointRow(row: Row): (r: Row)
    ensures r.Keys == (row.Keys * WantedCols) - {"LONGITUDE", "LATITUDE"} + {"geometry"}
    ensures forall c :: c in row && c in WantedCols && c != "LONGITUDE" && c != "LATITUDE" ==> r[c] == row[c]
    ensures r["geometry"] == PointGeom(Cell(row, "LONGITUDE"), Cell(row, "LATITUDE"))
  {
    var kept := map c | c in row && c in WantedCols && c != "LONGITUDE" && c != "LATITUDE" :: row[c];
    kept["geometry" := PointGeom(Cell(row, "LONGITUDE"), Cell(row, "LATITUDE"))]
  }

  function ToPointRows(rows: seq<Row>): (r: seq<Row>)
    ensures |r| == |rows|
  {
    if rows == [] then [] else [ToPointRow(rows[0])] + ToPointRows(rows[1..])
  }

  lemma {:induction false} ToPointRowsAt(rows: seq<Row>, i: nat)
    requires i < |rows|
    ensures ToPointRows(rows)[i] == ToPointRow(rows[i])
  {
    if i > 0 {
      ToPointRowsAt(rows[1..], i - 1);
    }
  }

  /** A single WGMS table read from its file: the wanted columns, only valley
      glaciers (`PRIM_CLASSIFIC == 5`), with a point geometry. */
  function ReadWgms(t: Table): (r: Result<Table>)
    ensures r.Success? <==> {"PRIM_CLASSIFIC", "LONGITUDE", "LATITUDE"} <= t.columns
    ensures r.Success? ==> r.value.columns == (t.columns * WantedCols) - {"LONGITUDE", "LATITUDE"} + {"geometry"}
  {
    if "PRIM_CLASSIFIC" !in t.columns then Failure(AttributeError("PRIM_CLASSIFIC"))
    else if "LONGITUDE" !in t.columns then Failure(KeyError("LONGITUDE"))
    else if "LATITUDE" !in t.columns then Failure(KeyError("LATITUDE"))
    else Success(Table((t.columns * WantedCols) - {"LONGITUDE", "LATITUDE"} + {"geometry"},
                       ToPointRows(Where(t.rows, Valley))))
  }

  /** Reading a well-formed table gives a well-formed one holding one point
      row per valley glacier, in order, and only valley glaciers. */
  lemma ReadWgmsRows(t: Table)
    requires WellFormed(t) && ReadWgms(t).Success?
    ensures var w := ReadWgms(t).value;
            && WellFormed(w)
            && |w.rows| == CountWhere(t.rows, Valley)
            && (forall i :: 0 <= i < |w.rows| ==> Holds(Valley, w.rows[i]))
            && (forall i :: 0 <= i < |w.rows| ==> w.rows[i] == ToPointRow(Where(t.rows, Valley)[i]))
            && (forall y :: y in t.rows && Holds(Valley, y) ==> ToPointRow(y) in w.rows)
  {
    var valleys := Where(t.rows, Valley);
    var w := ReadWgms(t).value;
    WhereCount(t.rows, Valley);
    forall i | 0 <= i < |w.rows|
      ensures w.rows[i].Keys == w.columns && Holds(Valley, w.rows[i])
      ensures w.rows[i] == ToPointRow(valleys[i])
    {
      ToPointRowsAt(valleys, i);
      assert valleys[i] in valleys;
    }
    forall y | y in t.rows && Holds(Valley, y) ensures ToPointRow(y) in w.rows {
      assert y in valleys;
      var j :| 0 <= j < |valleys| && valleys[j] == y;
      ToPointRowsAt(valleys, j);
      assert w.rows[j] == ToPointRow(y);
    }
  }

  // ---------------------------------------------------------------------
  // prep_joined and id_query
  // ---------------------------------------------------------------------

  /** What `isin` is given: a list of ids, or a plain string, which it
      refuses because a string is not list-like. */
  datatype IsinArg = ListLike(ids: seq<string>) | PlainString(text: string)

  /** `joined[joined.glac_id.isin(ids)]`. The column is read before `isin`
      looks at its argument, so a table without `glac_id` raises
      `AttributeError` whatever the argument is. */
  function PrepJoined(arg: IsinArg, joined: Table): (r: Result<Table>)
    ensures GlacId !in joined.columns ==> r == Failure(AttributeError(GlacId))
    ensures GlacId in joined.columns && arg.PlainString? ==> r == Failure(TypeError)
    ensures r.Success? <==> GlacId in joined.columns && arg.ListLike?
    ensures r.Success? ==> r.value.columns == joined.columns
    ensures r.Success? ==> forall x :: x in r.value.rows <==>
              x in joined.rows && Cell(x, GlacId).Text? && Cell(x, GlacId).s in arg.ids
  {
    if GlacId !in joined.columns then Failure(AttributeError(GlacId))
    else if arg.PlainString? then Failure(TypeError)
    else Success(Table(joined.columns, Where(joined.rows, IdIn(arg.ids))))
  }

  /** The columns `id_query` drops. */
  const ToDrop: set<string> := {"geometry", "GLIMS_ID", "WGMS_ID"}

  /** The attribute map of one glacier: its row without geometry and ids,
      plus its exterior coordinates and its envelope scaled by `scale`.
      Fails unless exactly one row carries the id and its geometry is a
      polygon. `drop` raises `KeyError` naming a dropped column the frame
      lacks. When `glac_id` is the only column left after the drop, the
      one-cell frame squeezes to the id string itself, and `dict` of a
      string is empty for `""` and a `ValueError` otherwise (each character
      is an element of length 1, not a pair). */
  function IdQuery(glimsId: string, subset: Table, scale: real): (r: Result<map<string, Value>>)
    ensures r.Success? ==>
              var matching := Where(subset.rows, IdIs(glimsId));
              && |matching| == 1
              && (|subset.columns - ToDrop| != 1 ==>
                    && r.value.Keys == (matching[0].Keys - ToDrop) + {"coords", "bbox"}
                    && (forall c :: c in matching[0] && c !in ToDrop && c != "coords" && c != "bbox" ==>
                          r.value[c] == matching[0][c]))
              && (|subset.columns - ToDrop| == 1 ==> glimsId == "" && r.value.Keys == {"coords", "bbox"})
    ensures GlacId in subset.columns && |Where(subset.rows, IdIs(glimsId))| != 1 ==> r.Failure?
    ensures !(ToDrop <= subset.columns) ==> r.Failure?
    ensures r.Failure? && r.error.KeyError? ==> r.error.key in ToDrop && r.error.key !in subset.columns
    ensures |subset.columns - ToDrop| == 1 && glimsId != "" ==> r.Failure?
    ensures r.Success? <==>
              && GlacId in subset.columns
              && |Where(subset.rows, IdIs(glimsId))| == 1
              && Cell(Where(subset.rows, IdIs(glimsId))[0], "geometry").Polygon?
              && ToDrop <= subset.columns
              && (|subset.columns - ToDrop| != 1 || glimsId == "")
  {
    if GlacId !in subset.columns then Failure(AttributeError(GlacId))
    else
      var matching := Where(subset.rows, IdIs(glimsId));
      if |matching| != 1 then Failure(AttributeError("coords"))
      else
        var row := matching[0];
        var geometry := Cell(row, "geometry");
        if !geometry.Polygon? then Failure(AttributeError("exterior"))
        else if "geometry" !in subset.columns then Failure(KeyError("geometry"))
        else if "GLIMS_ID" !in subset.columns then Failure(KeyError("GLIMS_ID"))
        else if "WGMS_ID" !in subset.columns then Failure(KeyError("WGMS_ID"))
        else if |subset.columns - ToDrop| == 1 then
          if glimsId == "" then
            Success(map["coords" := Coords(geometry.ring)]["bbox" := ScaledEnvelope(geometry.ring, scale)])
          else Failure(ValueError)
        else
          Success((row - ToDrop)["coords" := Coords(geometry.ring)]
                                ["bbox" := ScaledEnvelope(geometry.ring, scale)])
  }

  /** The id `id_query` matched on survives into its result, except when
      it was the only column left to turn into a dict. */
  lemma IdQueryKeepsId(glimsId: string, subset: Table, scale: real)
    requires IdQuery(glimsId, subset, scale).Success?
    ensures var r := IdQuery(glimsId, subset, scale).value;
            && (GlacId in r <==> |subset.columns - ToDrop| != 1)
            && (GlacId in r ==> r[GlacId] == Text(glimsId))
  {
    var matching := Where(subset.rows, IdIs(glimsId));
    assert matching[0] in matching;
  }
}

=== FILE: dates.dfy ===
/** Calendar dates as the source handles them: ISO `YYYY-MM-DD` strings (the
    `full-date` of section 5.6 of RFC 3339) parsed with `date.fromisoformat`,
    and compared chronologically, which for valid dates is the lexicographic
    order on (year, month, day). */
module Dates {
  import opened Prelude

  datatype Date = Date(year: nat, month: nat, day: nat)

  /** Strict chronological order: lexicographic on (year, month, day). */
  predicate Before(a: Date, b: Date)
  {
    || a.year < b.year
    || (a.year == b.year && (a.month < b.month || (a.month == b.month && a.day < b.day)))
  }

  /** The later of two dates. */
  function Max(a: Date, b: Date): (r: Date)
    ensures r == a || r == b
    ensures !Before(r, a) && !Before(r, b)
  {
    if Before(a, b) then b else a
  }

  /** The earlier of two dates. */
  function Min(a: Date, b: Date): (r: Date)
    ensures r == a || r == b
    ensures !Before(a, r) && !Before(b, r)
  {
    if Before(a, b) then a else b
  }

  lemma BeforeIsStrictTotalOrder(a: Date, b: Date, c: Date)
    ensures !Before(a, a)
    ensures Before(a, b) ==> !Before(b, a)
    ensures Before(a, b) && Before(b, c) ==> Before(a, c)
    ensures a != b ==> Before(a, b) || Before(b, a)
  {
  }

  predicate IsLeapYear(y: nat)
  {
    y % 4 == 0 && (y % 100 != 0 || y % 400 == 0)
  }

  function DaysInMonth(y: nat, m: nat): nat
    requires 1 <= m <= 12
  {
    if m == 2 then (if IsLeapYear(y) then 29 else 28)
    else if m == 4 || m == 6 || m == 9 || m == 11 then 30
    else 31
  }

  /** A date Python's `datetime.date` can represent (years 1 to 9999). */
  predicate Valid(d: Date)
  {
    1 <= d.year <= 9999 && 1 <= d.month <= 12 && 1 <= d.day <= DaysInMonth(d.year, d.month)
  }

  // ---------------------------------------------------------------------
  // Fixed-width decimal digits
  // ---------------------------------------------------------------------

  predicate IsDigit(c: char)
  {
    '0' <= c <= '9'
  }

  predicate AllDigits(s: string)
  {
    forall i :: 0 <= i < |s| ==> IsDigit(s[i])
  }

  function DigitValue(c: char): nat
    requires IsDigit(c)
  {
    c as int - '0' as int
  }

  function DigitChar(n: nat): char
    requires n < 10
  {
    ('0' as int + n) as char
  }

  function Pow10(w: nat): nat
  {
    if w == 0 then 1 else 10 * Pow10(w - 1)
  }

  /** The last `w` decimal digits of `n`, zero-padded on the left. */
  function Pad(n: nat, w: nat): (s: string)
    ensures |s| == w && AllDigits(s)
  {
    if w == 0 then [] else Pad(n / 10, w - 1) + [DigitChar(n % 10)]
  }

  /** The number a string of decimal digits denotes. */
  function DigitsValue(s: string): nat
    requires AllDigits(s)
  {
    if |s| == 0 then 0 else DigitsValue(s[..|s| - 1]) * 10 + DigitValue(s[|s| - 1])
  }

  lemma {:induction false} NumberOfPad(n: nat, w: nat)
    requires n < Pow10(w)
    ensures DigitsValue(Pad(n, w)) == n
  {
    if w > 0 {
      var p := Pad(n / 10, w - 1);
      assert Pad(n, w) == p + [DigitChar(n % 10)];
      assert Pad(n, w)[..w - 1] == p;
      NumberOfPad(n / 10, w - 1);
    }
  }

  lemma {:induction false} PadOfNumber(s: string)
    requires AllDigits(s)
    ensures DigitsValue(s) < Pow10(|s|)
    ensures Pad(DigitsValue(s), |s|) == s
  {
    if |s| > 0 {
      var init := s[..|s| - 1];
      assert AllDigits(init);
      PadOfNumber(init);
      var n := DigitsValue(s);
      var d := DigitValue(s[|s| - 1]);
      assert n == DigitsValue(init) * 10 + d;
      assert n / 10 == DigitsValue(init) && n % 10 == d;
      assert DigitChar(d) == s[|s| - 1];
      assert s == init + [s[|s| - 1]];
    }
  }

  // ---------------------------------------------------------------------
  // ISO calendar dates
  // ---------------------------------------------------------------------

  /** `date.isoformat()`: four-digit year, two-digit month and day. */
  function Format(d: Date): (s: string)
    ensures |s| == 10 && s[4] == '-' && s[7] == '-'
  {
    Pad(d.year, 4) + "-" + Pad(d.month, 2) + "-" + Pad(d.day, 2)
  }

  /** `date.fromisoformat(s)`: only the strict `YYYY-MM-DD` form of a date
      that exists; anything else raises ValueError. */
  function Parse(s: string): (r: Result<Date>)
    ensures r.Success? ==> Valid(r.value)
    ensures r.Failure? ==> r.error == ValueError
  {
    if |s| == 10 && s[4] == '-' && s[7] == '-'
       && AllDigits(s[..4]) && AllDigits(s[5..7]) && AllDigits(s[8..])
    then
      var d := Date(DigitsValue(s[..4]), DigitsValue(s[5..7]), DigitsValue(s[8..]));
      if Valid(d) then Success(d) else Failure(ValueError)
    else
      Failure(ValueError)
  }

  /** Every valid date survives formatting and parsing. */
  lemma ParseOfFormat(d: Date)
    requires Valid(d)
    ensures Parse(Format(d)) == Success(d)
  {
    var s := Format(d);
    assert s[..4] == Pad(d.year, 4);
    assert s[5..7] == Pad(d.month, 2);
    assert s[8..] == Pad(d.day, 2);
    assert Pow10(2) == 100;
    assert Pow10(4) == 10000;
    NumberOfPad(d.year, 4);
    NumberOfPad(d.month, 2);
    NumberOfPad(d.day, 2);
  }

  /** A string that parses is exactly the formatting of its date: the
      accepted syntax is canonical, so parsing is injective. */
  lemma FormatOfParse(s: string)
    requires Parse(s).Success?
    ensures Format(Parse(s).value) == s
  {
    var d := Parse(s).value;
    PadOfNumber(s[..4]);
    PadOfNumber(s[5..7]);
    PadOfNumber(s[8..]);
    assert s == s[..4] + "-" + s[5..7] + "-" + s[8..];
  }
}

=== FILE: drive.dfy ===
/** The Drive folder directory of `src/drive.py`: the listing query strings,
    the first-page lookup of a folder by name, folder creation, and the
    paginated drain of a parent folder's children into a name-to-id map. */
module Drive {
  import opened Prelude
  import opened Remote

  const FolderMime: string := "application/vnd.google-apps.folder"

  /** Every listing restricts itself to folders. */
  const QueryPrefix: string := "mimeType ='application/vnd.google-apps.folder' and "

  /** The enclosing folder's default name. */
  const ParentFolderName: string := "glaciers"

  // ---------------------------------------------------------------------
  // Query strings
  // ---------------------------------------------------------------------

  function ListQuery(clause: string): string
  {
    QueryPrefix + clause
  }

  function NameClause(name: string): string
  {
    "name='" + name + "'"
  }

  function ParentClause(parentId: string): string
  {
    "'" + parentId + "' in parents"
  }

  function NameQuery(name: string): string
  {
    ListQuery(NameClause(name))
  }

  function ParentQuery(parentId: string): string
  {
    ListQuery(ParentClause(parentId))
  }

  /** The caller's clause of a listing query, if `q` is one. */
  function ClauseOf(q: string): (r: Option<string>)
    ensures r.Some? <==> QueryPrefix <= q
    ensures r.Some? ==> ListQuery(r.value) == q
  {
    if QueryPrefix <= q then Some(q[|QueryPrefix|..]) else None
  }

  lemma ClauseOfListQuery(clause: string)
    ensures ClauseOf(ListQuery(clause)) == Some(clause)
  {
    assert QueryPrefix <= ListQuery(clause);
    assert ListQuery(clause)[|QueryPrefix|..] == clause;
  }

  /** Two name lookups send the same query exactly when they look up the same name. */
  lemma NameQueryInjective(a: string, b: string)
    ensures NameQuery(a) == NameQuery(b) <==> a == b
  {
    if NameQuery(a) == NameQuery(b) {
      ClauseOfListQuery(NameClause(a));
      ClauseOfListQuery(NameClause(b));
      var ca, cb := NameClause(a), NameClause(b);
      assert ca == cb;
      assert |a| == |b|;
      assert a == ca[6..|ca| - 1];
      assert b == cb[6..|cb| - 1];
    }
  }

  /** A name lookup and a children listing never send the same query. */
  lemma NameAndParentQueriesDiffer(name: string, parentId: string)
    ensures NameQuery(name) != ParentQuery(parentId)
  {
    assert NameQuery(name)[|QueryPrefix|] == 'n';
    assert ParentQuery(parentId)[|QueryPrefix|] == '\'';
  }

  // ---------------------------------------------------------------------
  // Name-to-id maps
  // ---------------------------------------------------------------------

  /** The position of the last record called `name`, or -1 when there is none. */
  function LastIndex(files: seq<FileRecord>, name: string): (i: int)
    ensures -1 <= i < |files|
    ensures 0 <= i ==> files[i].name == name
    ensures forall j :: i < j < |files| ==> files[j].name != name
  {
    if files == [] then -1
    else if files[|files| - 1].name == name then |files| - 1
    else LastIndex(files[..|files| - 1], name)
  }

  /** `m` holds every listed name and no other, each with its last record's id. */
  ghost predicate LastWins(files: seq<FileRecord>, m: map<string, string>)
  {
    forall n ::
      && (n in m <==> 0 <= LastIndex(files, n))
      && (n in m ==> m[n] == files[LastIndex(files, n)].id)
  }

  /** The dict `{f.name: f.id for f in files}`: a later record overrides an
      earlier one with the same name. */
  function Matches(files: seq<FileRecord>): (m: map<string, string>)
    ensures LastWins(files, m)
  {
    if files == [] then map[]
    else
      var f := files[|files| - 1];
      Matches(files[..|files| - 1])[f.name := f.id]
  }

  /** All records of a sequence of pages, in listing order. */
  function Flatten(pages: seq<Page>): seq<FileRecord>
  {
    if pages == [] then [] else Flatten(pages[..|pages| - 1]) + pages[|pages| - 1].files
  }

  lemma {:induction false} LastIndexAppend(a: seq<FileRecord>, b: seq<FileRecord>, n: string)
    ensures LastIndex(a + b, n)
         == if 0 <= LastIndex(b, n) then |a| + LastIndex(b, n) else LastIndex(a, n)
  {
    if b != [] {
      assert (a + b)[..|a + b| - 1] == a + b[..|b| - 1];
      LastIndexAppend(a, b[..|b| - 1], n);
    } else {
      assert a + b == a;
    }
  }

  /** `dict.update`: merging the map of a later batch of records into the map
      of an earlier one gives the map of all of them. */
  lemma UpdateKeepsLastWins(a: seq<FileRecord>, ma: map<string, string>,
                            b: seq<FileRecord>, mb: map<string, string>)
    requires LastWins(a, ma) && LastWins(b, mb)
    ensures LastWins(a + b, ma + mb)
  {
    forall n
      ensures && (n in ma + mb <==> 0 <= LastIndex(a + b, n))
              && (n in ma + mb ==> (ma + mb)[n] == (a + b)[LastIndex(a + b, n)].id)
    {
      LastIndexAppend(a, b, n);
      var ib := LastIndex(b, n);
      if 0 <= ib {
        assert n in mb && (ma + mb)[n] == mb[n];
        assert (a + b)[|a| + ib] == b[ib];
      } else {
        assert n !in mb;
        var ia := LastIndex(a, n);
        if 0 <= ia {
          assert (a + b)[ia] == a[ia];
        }
      }
    }
  }

  // ---------------------------------------------------------------------
  // get_parent_folder_id
  // ---------------------------------------------------------------------

  /** `{f.name: f.id for f in page.files}[name]`. */
  function LookupName(page: Page, name: string): (r: Result<string>)
    ensures r.Success? <==> 0 <= LastIndex(page.files, name)
    ensures r.Success? ==> r.value == page.files[LastIndex(page.files, name)].id
    ensures r.Failure? ==> r.error == KeyError(name)
  {
    var m := Matches(page.files);
    if name in m then Success(m[name]) else Failure(KeyError(name))
  }

  /** One listing call for the name, no continuation token; only the first
      page is read, and the last record carrying the name wins. */
  function GetParentFolderId(s: Session, name: string): (r: (Result<string>, Session))
    ensures r.1.service == s.service
    ensures r.1.trace == s.trace + [ListFolders(NameQuery(name), None)]
    ensures var first := s.service.listing(NameQuery(name))[0];
            && (r.0.Success? <==> 0 <= LastIndex(first.files, name))
            && (r.0.Success? ==> r.0.value == first.files[LastIndex(first.files, name)].id)
            && (r.0.Failure? ==> r.0.error == KeyError(name))
  {
    var q := NameQuery(name);
    (LookupName(s.service.listing(q)[0], name), s.Append(ListFolders(q, None)))
  }

  /** A name that appears only on a later page is still a KeyError. */
  lemma LaterPagesAreNeverRead(s: Session, name: string)
    requires var pages := s.service.listing(NameQuery(name));
             && LastIndex(pages[0].files, name) < 0
             && 0 <= LastIndex(Flatten(pages), name)
    ensures GetParentFolderId(s, name).0 == Failure(KeyError(name))
  {
  }

  // ---------------------------------------------------------------------
  // create_folder
  // ---------------------------------------------------------------------

  /** Python truthiness of an optional string: present and non-empty. */
  predicate Truthy(p: Option<string>)
  {
    p.Some? && p.value != ""
  }

  /** The request body's `parents` entry. */
  function Parents(parentId: Option<string>): (ps: seq<string>)
    ensures |ps| <= 1
    ensures |ps| == 1 <==> Truthy(parentId)
    ensures |ps| == 1 ==> ps[0] == parentId.value
  {
    if Truthy(parentId) then [parentId.value] else []
  }

  /** Always creates: one create request carrying the name and the folder
      mimeType, answered with a new id; no existence check. */
  function CreateFolder(s: Session, name: string, parentId: Option<string>): (r: (string, Session))
    ensures r.1.service == s.service
    ensures r.1.trace == s.trace + [NewFolder(name, FolderMime, Parents(parentId), r.0)]
    ensures r.0 == s.service.mint(|s.trace|)
  {
    var id := s.service.mint(|s.trace|);
    (id, s.Append(NewFolder(name, FolderMime, Parents(parentId), id)))
  }

  /** Creating the same folder twice makes two folders with distinct ids. */
  lemma CreateIsNotIdempotent(s: Session, name: string, parentId: Option<string>)
    requires FreshIds(s.service)
    ensures var (id1, s1) := CreateFolder(s, name, parentId);
            var (id2, s2) := CreateFolder(s1, name, parentId);
            && id1 != id2
            && CountCreates(s2.trace) == CountCreates(s.trace) + 2
  {
    var (id1, s1) := CreateFolder(s, name, parentId);
    var (id2, s2) := CreateFolder(s1, name, parentId);
    assert |s1.trace| == |s.trace| + 1;
    CountCreatesAppend(s.trace, [s1.trace[|s.trace|]]);
    CountCreatesAppend(s1.trace, [s2.trace[|s1.trace|]]);
    assert s1.trace == s.trace + [s1.trace[|s.trace|]];
    assert s2.trace == s1.trace + [s2.trace[|s1.trace|]];
  }

  // ---------------------------------------------------------------------
  // get_folder_ids
  // ---------------------------------------------------------------------

  /** The position of the first page without a continuation token, or the
      number of pages when every page carries one. */
  function FirstFinal(pages: seq<Page>): (k: nat)
    ensures k <= |pages|
    ensures k < |pages| ==> pages[k].next.None?
    ensures forall j :: 0 <= j < k ==> pages[j].next.Some?
  {
    if pages == [] then 0
    else if pages[0].next.None? then 0
    else 1 + FirstFinal(pages[1..])
  }

  /** The first `n` listing requests of a drain: the first without a token,
      each later one with the token of the response before it. */
  function Requests(q: string, pages: seq<Page>, n: nat): (es: seq<Event>)
    requires n <= |pages|
    ensures |es| == n
  {
    if n == 0 then []
    else Requests(q, pages, n - 1) + [ListFolders(q, if n == 1 then None else pages[n - 2].next)]
  }

  /** Exactly one listing request per page read: the first without a token,
      each later one with the token of the response before it. */
  lemma {:induction false} RequestsCarryTokens(q: string, pages: seq<Page>, n: nat)
    requires n <= |pages|
    ensures forall i :: 0 <= i < n ==>
              Requests(q, pages, n)[i] == ListFolders(q, if i == 0 then None else pages[i - 1].next)
  {
    if n > 0 {
      RequestsCarryTokens(q, pages, n - 1);
    }
  }

  /** The drained map after the optional `glims_ids` filter: names listed
      under the parent (and requested, when the filter is truthy), each with
      the id of its last record. */
  ghost predicate Drained(all: seq<FileRecord>, glimsIds: Option<seq<string>>, m: map<string, string>)
  {
    forall n ::
      && (n in m <==> 0 <= LastIndex(all, n)
                      && (glimsIds.Some? && |glimsIds.value| > 0 ==> n in glimsIds.value))
      && (n in m ==> m[n] == all[LastIndex(all, n)].id)
  }

  method GetFolderIds(s: Session, parentId: string, glimsIds: Option<seq<string>>)
    returns (r: Result<map<string, string>>, s': Session)
    ensures s'.service == s.service
    ensures var pages := s.service.listing(ParentQuery(parentId));
            r.Success? <==> FirstFinal(pages) < |pages|
    ensures var pages := s.service.listing(ParentQuery(parentId));
            r.Success? ==>
              && s'.trace == s.trace + Requests(ParentQuery(parentId), pages, FirstFinal(pages) + 1)
              && Drained(Flatten(pages[..FirstFinal(pages) + 1]), glimsIds, r.value)
    ensures var pages := s.service.listing(ParentQuery(parentId));
            r.Failure? ==>
              && r.error == PagesExhausted
              && s'.trace == s.trace + Requests(ParentQuery(parentId), pages, |pages|)
  {
    var q := ParentQuery(parentId);
    var pages := s.service.listing(q);
    var folderIds, n;
    folderIds, s', n := Drain(s, q);
    if FirstFinal(pages) == |pages| {
      return Failure(PagesExhausted), s';
    }
    FilterKeepsDrained(Flatten(pages[..n]), folderIds, glimsIds);
    r := Success(KeepRequested(folderIds, glimsIds));
  }

  /** The `while True` loop: request page after page, passing each
      response's token, merging each page's records into the map, until a
      response carries no token (or the modelled listing runs out). */
  method Drain(s: Session, q: string) returns (folderIds: map<string, string>, s': Session, n: nat)
    ensures var pages := s.service.listing(q);
            && n == (if FirstFinal(pages) < |pages| then FirstFinal(pages) + 1 else |pages|)
            && s'.service == s.service
            && s'.trace == s.trace + Requests(q, pages, n)
            && LastWins(Flatten(pages[..n]), folderIds)
  {
    var pages := s.service.listing(q);
    var token: Option<string> := None;
    folderIds := map[];
    var i := 0;
    s' := s;
    while true
      invariant 0 <= i < |pages|
      invariant i <= FirstFinal(pages)
      invariant token == if i == 0 then None else pages[i - 1].next
      invariant s'.service == s.service
      invariant s'.trace == s.trace + Requests(q, pages, i)
      invariant LastWins(Flatten(pages[..i]), folderIds)
      decreases |pages| - i
    {
      var resp := pages[i];
      assert Requests(q, pages, i + 1) == Requests(q, pages, i) + [ListFolders(q, token)];
      s' := s'.Append(ListFolders(q, token));
      DrainStep(pages, i, folderIds);
      folderIds := folderIds + Matches(resp.files);
      token := resp.next;
      if token.None? {
        return folderIds, s', i + 1;
      }
      if i + 1 == |pages| {
        assert pages[..i + 1] == pages;
        return folderIds, s', i + 1;
      }
      i := i + 1;
    }
  }


  lemma DrainStep(pages: seq<Page>, i: nat, m: map<string, string>)
    requires i < |pages| && LastWins(Flatten(pages[..i]), m)
    ensures LastWins(Flatten(pages[..i + 1]), m + Matches(pages[i].files))
  {
    assert pages[..i + 1][..i] == pages[..i];
    UpdateKeepsLastWins(Flatten(pages[..i]), m, pages[i].files, Matches(pages[i].files));
  }

  /** The post-drain filter: only when `glims_ids` is truthy, keep the
      requested names. */
  function KeepRequested(m: map<string, string>, glimsIds: Option<seq<string>>): (r: map<string, string>)
    ensures forall n :: n in r <==> n in m && (glimsIds.Some? && |glimsIds.value| > 0 ==> n in glimsIds.value)
    ensures forall n :: n in r ==> r[n] == m[n]
  {
    if glimsIds.Some? && |glimsIds.value| > 0 then
      map n | n in m && n in glimsIds.value :: m[n]
    else m
  }

  lemma FilterKeepsDrained(all: seq<FileRecord>, m: map<string, string>, glimsIds: Option<seq<string>>)
    requires LastWins(all, m)
    ensures Drained(all, glimsIds, KeepRequested(m, glimsIds))
  {
  }
}

=== FILE: gee.dfy ===
/** `ee_download` (`src/gee.py`): for one glacier, either the GMTED
    elevation export alone, or the Landsat scene selection, the Drive folder
    for the glacier, the local log row, the SRTM elevation export and one
    export per selected scene. Earth Engine's image algebra is abstracted to
    the scenes of each collection that cover the glacier's region; what the
    model keeps is which requests are made, in which order, with which
    names, and what is written to the glacier object and the log. */
module Gee {
  import opened Prelude
  import opened Dates
  import opened Remote
  import opened Drive
  import opened Sensors
  import opened Catalog

  /** One Landsat image of a collection: its asset id, `DATE_ACQUIRED` and
      cloud score over the glacier's region. */
  datatype Scene = Scene(id: string, acquired: Date, cloud: real)

  /** The three collections, already restricted to the glacier's region
      (`filterBounds`), each in the order the collection lists them. */
  datatype Collections = Collections(l8: seq<Scene>, l7: seq<Scene>, l5: seq<Scene>)

  /** The keyword parameters of `ee_download`. */
  datatype Params = Params(begDate: string, endDate: string, cloudTol: real,
                           landsat: bool, dem: bool, gmted: bool)

  const Defaults: Params := Params("1984-01-01", "2020-01-01", 20.0, true, true, true)

  /** The sensor windows as the code computes them, or as it evidently
      intends them (see `Sensors`). */
  datatype Revision = AsWritten | Corrected

  /** A line of `glacierInfo.csv`: a row of column names, or a glacier's
      record. */
  datatype LogLine = Header(columns: set<string>) | Record(fields: map<string, Value>)

  datatype LogFile = Missing | Present(lines: seq<LogLine>)

  /** What one call leaves behind: the glacier object as mutated, the remote
      session and the local log. */
  datatype Outcome = Outcome(glacier: map<string, Value>, session: Session, log: LogFile)

  const GmtedAsset: string := "USGS/GMTED2010"
  const GmtedPrefix: string := "USGS_GMTED2010"
  const SrtmAsset: string := "USGS/SRTMGL1_003"
  const SrtmPrefix: string := "USGS_SRTMGL1_003"
  /** Every export is requested at 30 metres. */
  const ExportScale: nat := 30

  // ---------------------------------------------------------------------
  // Rendering `str(glacierObject['glac_id'])`
  // ---------------------------------------------------------------------

  function NatDigits(n: nat): (s: string)
    ensures |s| > 0 && AllDigits(s)
  {
    if n < 10 then [DigitChar(n)] else NatDigits(n / 10) + [DigitChar(n % 10)]
  }

  /** `str` of an integer: optional minus sign, then decimal digits. */
  function Decimal(n: int): string
  {
    if n < 0 then "-" + NatDigits(-n) else NatDigits(n)
  }

  /** `str(glacierObject['glac_id'])`. Only text and integer ids are
      rendered; any other cell is reported as not renderable. */
  function GlacierName(obj: map<string, Value>): (r: Result<string>)
    ensures GlacId !in obj ==> r == Failure(KeyError(GlacId))
    ensures GlacId in obj && obj[GlacId].Text? ==> r == Success(obj[GlacId].s)
  {
    if GlacId !in obj then Failure(KeyError(GlacId))
    else
      match obj[GlacId]
      case Text(s) => Success(s)
      case Number(n) => Success(Decimal(n))
      case _ => Failure(NotRenderable)
  }

  // ---------------------------------------------------------------------
  // Scene selection
  // ---------------------------------------------------------------------

  /** `filterDate(start, end)` followed by `filter(lt('cloud', cloud_tol))`,
      in collection order. */
  function Select(scenes: seq<Scene>, w: Window, cloudTol: real): (r: seq<Scene>)
    ensures |r| <= |scenes|
    ensures forall x :: x in r <==> x in scenes && InWindow(x.acquired, w) && x.cloud < cloudTol
  {
    if scenes == [] then []
    else
      var x := scenes[0];
      (if InWindow(x.acquired, w) && x.cloud < cloudTol then [x] else []) + Select(scenes[1..], w, cloudTol)
  }

  /** The selection keeps the collection's order. */
  lemma {:induction false} SelectKeepsOrder(scenes: seq<Scene>, w: Window, cloudTol: real)
    ensures IsSubsequence(Select(scenes, w, cloudTol), scenes)
  {
    if scenes != [] {
      SelectKeepsOrder(scenes[1..], w, cloudTol);
      var x := scenes[0];
      if InWindow(x.acquired, w) && x.cloud < cloudTol {
        assert ([x] + Select(scenes[1..], w, cloudTol))[1..] == Select(scenes[1..], w, cloudTol);
      } else {
        assert Select(scenes, w, cloudTol) == Select(scenes[1..], w, cloudTol);
      }
    }
  }

  /** The `DATE_ACQUIRED` strings of the scenes, in order. */
  function DateList(scenes: seq<Scene>): (ds: seq<string>)
    ensures |ds| == |scenes|
  {
    if scenes == [] then [] else [Format(scenes[0].acquired)] + DateList(scenes[1..])
  }

  /** One export per scene into the glacier's folder, named by its date. */
  function SceneExports(scenes: seq<Scene>, folder: string): (es: seq<Event>)
    ensures |es| == |scenes|
  {
    if scenes == [] then []
    else [Export(scenes[0].id, folder, Format(scenes[0].acquired), ExportScale)]
         + SceneExports(scenes[1..], folder)
  }

  lemma {:induction false} DateListAppend(a: seq<Scene>, b: seq<Scene>)
    ensures DateList(a + b) == DateList(a) + DateList(b)
  {
    if a != [] {
      assert (a + b)[1..] == a[1..] + b;
      DateListAppend(a[1..], b);
    } else {
      assert a + b == b;
    }
  }

  /** Each export names its file after the date the object records for the
      same scene, into the glacier's folder, at 30 metres. */
  lemma {:induction false} ExportsFollowDates(scenes: seq<Scene>, folder: string, i: nat)
    requires i < |scenes|
    ensures SceneExports(scenes, folder)[i]
            == Export(scenes[i].id, folder, DateList(scenes)[i], ExportScale)
  {
    if i > 0 {
      ExportsFollowDates(scenes[1..], folder, i - 1);
    }
  }

  /** A scene set that no window admits selects nothing. */
  lemma {:induction false} SelectNothing(scenes: seq<Scene>, w: Window, cloudTol: real)
    requires forall x :: x in scenes ==> !InWindow(x.acquired, w)
    ensures Select(scenes, w, cloudTol) == []
  {
    if scenes != [] {
      assert scenes[0] in scenes;
      SelectNothing(scenes[1..], w, cloudTol);
    }
  }

  /** The three windows, or the `NameError` the code raises when the
      Landsat 8 list is never bound. */
  function Windows(rev: Revision, beg: Date, end: Date): (r: Result<(Window, Window, Window)>)
    ensures rev == Corrected ==>
              r == Success((WindowOf(Landsat8, beg, end), WindowOf(Landsat7, beg, end), WindowOf(Landsat5, beg, end)))
    ensures rev == AsWritten ==> (r.Success? <==> Before(L8Start, end))
    ensures rev == AsWritten && r.Success? ==>
              && r.value.0 == Window(L8Start, end)
              && r.value.1 == Window(Min(beg, L7Start), end)
              && r.value.2 == Window(beg, Min(end, L5End))
  {
    match rev
    case Corrected =>
      Success((L8Window(beg, end), L7Window(beg, end), L5Window(beg, end)))
    case AsWritten =>
      var l8 := L8WindowAsWritten(beg, end);
      if l8.None? then Failure(NameError("collectionSizeL8"))
      else Success((l8.value, L7WindowAsWritten(beg, end), L5Window(beg, end)))
  }

  // ---------------------------------------------------------------------
  // Drive folder and log
  // ---------------------------------------------------------------------

  /** The parent folder looked up by name and created (at the root) when the
      lookup raises, then a new folder named after the glacier inside it. */
  function Provision(s: Session, folderName: string, name: string): (r: (string, Session))
  {
    var (found, s1) := GetParentFolderId(s, folderName);
    var (parentId, s2) := if found.Success? then (found.value, s1) else CreateFolder(s1, folderName, None);
    CreateFolder(s2, name, Some(parentId))
  }

  /** Writing the object to `glacierInfo.csv`. An empty existing file gets
      a header and the record, a non-empty one the record. A missing file,
      as written, gets one row holding the object's keys (`writerow` of a
      dict iterates its keys) and no record; corrected, it gets a header
      and the record. */
  function AppendLog(rev: Revision, log: LogFile, obj: map<string, Value>): (r: LogFile)
    ensures r.Present?
  {
    match log
    case Present(lines) =>
      if lines == [] then Present([Header(obj.Keys), Record(obj)])
      else Present(lines + [Record(obj)])
    case Missing =>
      if rev == AsWritten then Present([Header(obj.Keys)])
      else Present([Header(obj.Keys), Record(obj)])
  }

  // ---------------------------------------------------------------------
  // ee_download
  // ---------------------------------------------------------------------

  /** The scenes the Landsat branch selects, per sensor. */
  datatype Selection = Selection(l8: seq<Scene>, l7: seq<Scene>, l5: seq<Scene>) {
    /** In export order: Landsat 8, then 7, then 5. */
    function All(): seq<Scene>
    {
      l8 + l7 + l5
    }
  }

  /** Parsing the dates (`endDate` first, at the Landsat 8 test; `begDate`
      at the Landsat 7 test), choosing the windows and filtering each
      collection. */
  function SelectScenes(rev: Revision, prm: Params, colls: Collections): (r: Result<Selection>)
    ensures Parse(prm.endDate).Failure? ==> r == Failure(ValueError)
    ensures Parse(prm.begDate).Failure? ==> r == Failure(ValueError)
    ensures r.Success? <==>
              && Parse(prm.endDate).Success? && Parse(prm.begDate).Success?
              && (rev == Corrected || Before(L8Start, Parse(prm.endDate).value))
    ensures r.Success? ==>
              var ws := Windows(rev, Parse(prm.begDate).value, Parse(prm.endDate).value).value;
              && r.value.l8 == Select(colls.l8, ws.0, prm.cloudTol)
              && r.value.l7 == Select(colls.l7, ws.1, prm.cloudTol)
              && r.value.l5 == Select(colls.l5, ws.2, prm.cloudTol)
    ensures r.Failure? ==> r.error == ValueError || r.error == NameError("collectionSizeL8")
  {
    var end :- Parse(prm.endDate);
    var beg :- Parse(prm.begDate);
    var ws :- Windows(rev, beg, end);
    Success(Selection(Select(colls.l8, ws.0, prm.cloudTol),
                      Select(colls.l7, ws.1, prm.cloudTol),
                      Select(colls.l5, ws.2, prm.cloudTol)))
  }

  /** The object after the date lists and the folder fields are filled in. */
  function Annotate(obj: map<string, Value>, sel: Selection, name: string, folderId: string): map<string, Value>
  {
    obj["L8Dates" := Texts(DateList(sel.l8))]
       ["L7Dates" := Texts(DateList(sel.l7))]
       ["L5Dates" := Texts(DateList(sel.l5))]
       ["fileaddress" := Text(name)]
       ["drivefile_id" := Text(folderId)]
  }

  /** The dates an object records, in the order of its three lists. */
  function RecordedDates(obj: map<string, Value>): seq<string>
  {
    Items(obj, "L8Dates") + Items(obj, "L7Dates") + Items(obj, "L5Dates")
  }

  function Items(obj: map<string, Value>, key: string): seq<string>
  {
    if key in obj && obj[key].Texts? then obj[key].items else []
  }

  /** The elevation export of the Landsat branch, when `dem` is set. */
  function DemExports(dem: bool, name: string): seq<Event>
  {
    if dem then [Export(SrtmAsset, name, SrtmPrefix, ExportScale)] else []
  }

  /** The GMTED branch: the glacier's folder must exist (the lookup's
      result is otherwise unused), then one elevation export into it; the
      object and the log are untouched. */
  function GmtedDownload(obj: map<string, Value>, s: Session, log: LogFile): (r: Result<Outcome>)
  {
    var name :- GlacierName(obj);
    var (found, s1) := GetParentFolderId(s, name);
    if found.Failure? then Failure(found.error)
    else Success(Outcome(obj, s1.Append(Export(GmtedAsset, name, GmtedPrefix, ExportScale)), log))
  }

  /** The Landsat branch. */
  function LandsatDownload(rev: Revision, obj: map<string, Value>, s: Session, folderName: string,
                           prm: Params, colls: Collections, log: LogFile): (r: Result<Outcome>)
  {
    var sel :- SelectScenes(rev, prm, colls);
    var name :- GlacierName(obj);
    var (folderId, s1) := Provision(s, folderName, name);
    var obj' := Annotate(obj, sel, name, folderId);
    var exports := if prm.landsat then SceneExports(sel.All(), name) else [];
    Success(Outcome(obj', s1.AppendAll(DemExports(prm.dem, name) + exports), AppendLog(rev, log, obj')))
  }

  /** `ee_download(glacierID, glacierObject, drive_service, folder_name,
      **params)`. The region is built from `bbox` before anything else. */
  function EeDownload(rev: Revision, obj: map<string, Value>, s: Session, folderName: string,
                      prm: Params, colls: Collections, log: LogFile): (r: Result<Outcome>)
    ensures "bbox" !in obj ==> r == Failure(KeyError("bbox"))
    ensures r.Success? ==> r.value.session.service == s.service
    ensures r.Failure? ==> r.error != PagesExhausted
  {
    if "bbox" !in obj then Failure(KeyError("bbox"))
    else if prm.gmted then GmtedDownload(obj, s, log)
    else LandsatDownload(rev, obj, s, folderName, prm, colls, log)
  }

  // ---------------------------------------------------------------------
  // Properties
  // ---------------------------------------------------------------------

  /** With `gmted` set, the call succeeds exactly when a folder named after
      the glacier is found, and then it makes one lookup and one GMTED
      export into that folder, creates nothing and leaves the object and the
      log as they were. */
  lemma GmtedOnlyExportsElevation(rev: Revision, obj: map<string, Value>, s: Session, folderName: string,
                                  prm: Params, colls: Collections, log: LogFile, name: string)
    requires "bbox" in obj && prm.gmted && GlacierName(obj) == Success(name)
    ensures var r := EeDownload(rev, obj, s, folderName, prm, colls, log);
            var first := s.service.listing(NameQuery(name))[0];
            && (r.Success? <==> 0 <= LastIndex(first.files, name))
            && (r.Failure? ==> r.error == KeyError(name))
            && (r.Success? ==>
                  && r.value.glacier == obj
                  && r.value.log == log
                  && r.value.session.trace
                     == s.trace + [ListFolders(NameQuery(name), None),
                                   Export(GmtedAsset, name, GmtedPrefix, ExportScale)])
  {
  }

  /** The keys `ee_download` writes into the glacier's object. */
  const AnnotatedKeys: set<string> := {"L8Dates", "L7Dates", "L5Dates", "fileaddress", "drivefile_id"}

  /** The keys and values `Annotate` writes, and the keys it leaves alone. */
  lemma AnnotateKeys(obj: map<string, Value>, sel: Selection, name: string, folderId: string)
    ensures var o := Annotate(obj, sel, name, folderId);
            && o.Keys == obj.Keys + AnnotatedKeys
            && (forall k :: k in obj && k !in AnnotatedKeys ==> o[k] == obj[k])
            && o["L8Dates"] == Texts(DateList(sel.l8))
            && o["L7Dates"] == Texts(DateList(sel.l7))
            && o["L5Dates"] == Texts(DateList(sel.l5))
            && o["fileaddress"] == Text(name)
            && o["drivefile_id"] == Text(folderId)
  {
  }

  /** The three lists read back in order are the dates of the whole
      selection in export order. */
  lemma {:induction false} AnnotateConcatenatesDates(obj: map<string, Value>, sel: Selection, name: string, folderId: string)
    ensures RecordedDates(Annotate(obj, sel, name, folderId)) == DateList(sel.All())
  {
    var o := Annotate(obj, sel, name, folderId);
    assert Items(o, "L8Dates") == DateList(sel.l8);
    assert Items(o, "L7Dates") == DateList(sel.l7);
    assert Items(o, "L5Dates") == DateList(sel.l5);
    DateListAppend(sel.l8, sel.l7);
    DateListAppend(sel.l8 + sel.l7, sel.l5);
  }

  /** The annotated object records each sensor's selected dates, all of them
      in export order, and the folder the scenes are exported into; it keeps
      every other key of the object with its value. */
  lemma {:induction false} AnnotateRecordsDates(obj: map<string, Value>, sel: Selection, name: string, folderId: string)
    ensures var o := Annotate(obj, sel, name, folderId);
            && o.Keys == obj.Keys + AnnotatedKeys
            && (forall k :: k in obj && k !in AnnotatedKeys ==> o[k] == obj[k])
            && o["L8Dates"] == Texts(DateList(sel.l8))
            && o["L7Dates"] == Texts(DateList(sel.l7))
            && o["L5Dates"] == Texts(DateList(sel.l5))
            && RecordedDates(o) == DateList(sel.All())
            && o["fileaddress"] == Text(name)
            && o["drivefile_id"] == Text(folderId)
  {
    AnnotateKeys(obj, sel, name, folderId);
    AnnotateConcatenatesDates(obj, sel, name, folderId);
  }

  /** The Landsat branch succeeds exactly when the dates parse, the windows
      are bound and the glacier's name renders: provisioning, logging and
      the exports never fail. */
  lemma LandsatSucceeds(rev: Revision, obj: map<string, Value>, s: Session, folderName: string,
                        prm: Params, colls: Collections, log: LogFile)
    ensures LandsatDownload(rev, obj, s, folderName, prm, colls, log).Success?
            <==> SelectScenes(rev, prm, colls).Success? && GlacierName(obj).Success?
  {
  }

  /** The Landsat branch, unfolded for a given selection and name. */
  lemma LandsatUnfold(rev: Revision, obj: map<string, Value>, s: Session, folderName: string,
                      prm: Params, colls: Collections, log: LogFile, sel: Selection, name: string)
    requires SelectScenes(rev, prm, colls) == Success(sel) && GlacierName(obj) == Success(name)
    ensures var (folderId, s1) := Provision(s, folderName, name);
            var o := Annotate(obj, sel, name, folderId);
            var exports := if prm.landsat then SceneExports(sel.All(), name) else [];
            LandsatDownload(rev, obj, s, folderName, prm, colls, log)
            == Success(Outcome(o, s1.AppendAll(DemExports(prm.dem, name) + exports), AppendLog(rev, log, o)))
  {
  }

  /** The number of exports the Landsat branch submits after provisioning. */
  function ExportCount(prm: Params, sel: Selection): nat
  {
    (if prm.dem then 1 else 0) + (if prm.landsat then |sel.All()| else 0)
  }

  /** Every event of `es` is an export into `folder`. */
  predicate ExportsInto(es: seq<Event>, folder: string)
  {
    forall i :: 0 <= i < |es| ==> es[i].Export? && es[i].folder == folder
  }

  lemma ExportsIntoGlacierFolder(dem: bool, scenes: seq<Scene>, name: string)
    ensures ExportsInto(DemExports(dem, name) + SceneExports(scenes, name), name)
  {
    var d := DemExports(dem, name);
    var es := d + SceneExports(scenes, name);
    forall i | 0 <= i < |es| ensures es[i].Export? && es[i].folder == name {
      if i >= |d| {
        ExportsFollowDates(scenes, name, i - |d|);
      }
    }
  }

  /** Provisioning, followed by anything: the lookup by name comes first,
      and the last request is the creation of the glacier's folder. */
  predicate ProvisionedThen(t: seq<Event>, before: seq<Event>, folderName: string, name: string,
                            folderId: string, svc: Service, n: nat)
  {
    && |before| + 2 <= |t| - n
    && t[..|before|] == before
    && t[|before|] == ListFolders(NameQuery(folderName), None)
    && t[|t| - n - 1].NewFolder? && t[|t| - n - 1].name == name
    && t[|t| - n - 1].id == folderId == svc.mint(|t| - n - 1)
  }

  lemma ProvisionShape(s: Session, folderName: string, name: string, tail: seq<Event>)
    ensures var p := Provision(s, folderName, name);
            ProvisionedThen(p.1.trace + tail, s.trace, folderName, name, p.0, s.service, |tail|)
  {
    ProvisionCreatesGlacierFolder(s, folderName, name);
  }

  /** A successful Landsat branch first looks up the parent folder by name,
      and its last Drive request creates the glacier's folder, whose id the
      object records as `drivefile_id`. */
  lemma {:induction false} LandsatFolder(rev: Revision, obj: map<string, Value>, s: Session, folderName: string,
                                         prm: Params, colls: Collections, log: LogFile, sel: Selection, name: string)
    requires SelectScenes(rev, prm, colls) == Success(sel) && GlacierName(obj) == Success(name)
    ensures LandsatDownload(rev, obj, s, folderName, prm, colls, log).Success?
    ensures var o := LandsatDownload(rev, obj, s, folderName, prm, colls, log).value;
            && "drivefile_id" in o.glacier && o.glacier["drivefile_id"].Text?
            && ProvisionedThen(o.session.trace, s.trace, folderName, name, o.glacier["drivefile_id"].s,
                               s.service, ExportCount(prm, sel))
  {
    var p := Provision(s, folderName, name);
    var scenes := if prm.landsat then sel.All() else [];
    var tail := DemExports(prm.dem, name) + SceneExports(scenes, name);
    var r := LandsatDownload(rev, obj, s, folderName, prm, colls, log);
    assert r.Success? && r.value.session.trace == p.1.trace + tail
           && "drivefile_id" in r.value.glacier && r.value.glacier["drivefile_id"] == Text(p.0) by {
      LandsatUnfold(rev, obj, s, folderName, prm, colls, log, sel, name);
      AnnotateRecordsDates(obj, sel, name, p.0);
    }
    assert |tail| == ExportCount(prm, sel);
    ProvisionShape(s, folderName, name, tail);
  }

  /** After the glacier's folder is created, a successful Landsat branch
      only exports, each into the glacier's folder, the SRTM elevation model
      first when `dem` is set. */
  lemma {:induction false} LandsatExports(rev: Revision, obj: map<string, Value>, s: Session, folderName: string,
                                          prm: Params, colls: Collections, log: LogFile, sel: Selection, name: string)
    requires SelectScenes(rev, prm, colls) == Success(sel) && GlacierName(obj) == Success(name)
    ensures LandsatDownload(rev, obj, s, folderName, prm, colls, log).Success?
    ensures var t := LandsatDownload(rev, obj, s, folderName, prm, colls, log).value.session.trace;
            var n := ExportCount(prm, sel);
            && n <= |t|
            && ExportsInto(t[|t| - n..], name)
            && (prm.dem ==> t[|t| - n] == Export(SrtmAsset, name, SrtmPrefix, ExportScale))
  {
    var p := Provision(s, folderName, name);
    var scenes := if prm.landsat then sel.All() else [];
    var tail := DemExports(prm.dem, name) + SceneExports(scenes, name);
    var r := LandsatDownload(rev, obj, s, folderName, prm, colls, log);
    assert r.Success? && r.value.session.trace == p.1.trace + tail by {
      LandsatUnfold(rev, obj, s, folderName, prm, colls, log, sel, name);
    }
    var t := r.value.session.trace;
    assert |tail| == ExportCount(prm, sel);
    assert t[|t| - |tail|..] == tail;
    ExportsIntoGlacierFolder(prm.dem, scenes, name);
  }

  /** Where the Landsat branch leaves the glacier's record: as the last line
      of the log, except as written on a missing file, where the log holds
      only the object's column names. */
  lemma LandsatLog(rev: Revision, obj: map<string, Value>, s: Session, folderName: string,
                   prm: Params, colls: Collections, log: LogFile)
    requires SelectScenes(rev, prm, colls).Success? && GlacierName(obj).Success?
    ensures LandsatDownload(rev, obj, s, folderName, prm, colls, log).Success?
    ensures var o := LandsatDownload(rev, obj, s, folderName, prm, colls, log).value;
            && o.log.Present?
            && (rev == Corrected || log.Present? ==>
                  |o.log.lines| > 0 && o.log.lines[|o.log.lines| - 1] == Record(o.glacier))
            && (log.Present? && log.lines != [] ==> o.log.lines[..|log.lines|] == log.lines)
            && (rev == AsWritten && log.Missing? ==> o.log.lines == [Header(o.glacier.Keys)])
  {
    var sel := SelectScenes(rev, prm, colls).value;
    var name := GlacierName(obj).value;
    var p := Provision(s, folderName, name);
    var g := Annotate(obj, sel, name, p.0);
    var exports := if prm.landsat then SceneExports(sel.All(), name) else [];
    var o := Outcome(g, p.1.AppendAll(DemExports(prm.dem, name) + exports), AppendLog(rev, log, g));
    assert LandsatDownload(rev, obj, s, folderName, prm, colls, log) == Success(o) by {
      LandsatUnfold(rev, obj, s, folderName, prm, colls, log, sel, name);
    }
  }

  /** The last entries of a trace are exports into `folder`, named by
      `dates` in order. */
  predicate EndsWithExports(t: seq<Event>, dates: seq<string>, folder: string)
  {
    && |dates| <= |t|
    && var tail := t[|t| - |dates|..];
       forall i :: 0 <= i < |tail| ==>
         && tail[i].Export?
         && tail[i].folder == folder
         && tail[i].prefix == dates[i]
  }

  /** The outcome's trace ends with exports into the folder the object
      records, named by the dates it records. */
  predicate ExportsNamedByDates(o: Outcome)
  {
    && "fileaddress" in o.glacier && o.glacier["fileaddress"].Text?
    && EndsWithExports(o.session.trace, RecordedDates(o.glacier), o.glacier["fileaddress"].s)
  }

  lemma TraceEndsWithExports(head: seq<Event>, scenes: seq<Scene>, folder: string)
    ensures EndsWithExports(head + SceneExports(scenes, folder), DateList(scenes), folder)
  {
    var t := head + SceneExports(scenes, folder);
    var tail := t[|t| - |scenes|..];
    assert tail == SceneExports(scenes, folder);
    forall i | 0 <= i < |tail|
      ensures && tail[i].Export?
              && tail[i].folder == folder
              && tail[i].prefix == DateList(scenes)[i]
    {
      ExportsFollowDates(scenes, folder, i);
    }
  }

  /** An annotated object whose trace ends with the selection's exports. */
  lemma AnnotatedExportsNamedByDates(obj: map<string, Value>, sel: Selection, name: string, folderId: string,
                                     head: seq<Event>, svc: Service, log: LogFile)
    ensures ExportsNamedByDates(Outcome(Annotate(obj, sel, name, folderId),
                                        Session(svc, head + SceneExports(sel.All(), name)), log))
  {
    AnnotateRecordsDates(obj, sel, name, folderId);
    TraceEndsWithExports(head, sel.All(), name);
  }

  lemma OutcomeNamedByDates(obj: map<string, Value>, sel: Selection, name: string, folderId: string,
                            s1: Session, dem: bool, log: LogFile)
    ensures ExportsNamedByDates(Outcome(Annotate(obj, sel, name, folderId),
                                        s1.AppendAll(DemExports(dem, name) + SceneExports(sel.All(), name)), log))
  {
    var head := s1.trace + DemExports(dem, name);
    assert s1.AppendAll(DemExports(dem, name) + SceneExports(sel.All(), name))
           == Session(s1.service, head + SceneExports(sel.All(), name));
    AnnotatedExportsNamedByDates(obj, sel, name, folderId, head, s1.service, log);
  }

  lemma {:induction false} LandsatNamedByDates(rev: Revision, obj: map<string, Value>, s: Session, folderName: string,
                                               prm: Params, colls: Collections, log: LogFile, sel: Selection, name: string)
    requires prm.landsat
    requires SelectScenes(rev, prm, colls) == Success(sel) && GlacierName(obj) == Success(name)
    ensures LandsatDownload(rev, obj, s, folderName, prm, colls, log).Success?
    ensures ExportsNamedByDates(LandsatDownload(rev, obj, s, folderName, prm, colls, log).value)
  {
    var p := Provision(s, folderName, name);
    var g := Annotate(obj, sel, name, p.0);
    var o := Outcome(g, p.1.AppendAll(DemExports(prm.dem, name) + SceneExports(sel.All(), name)), AppendLog(rev, log, g));
    assert LandsatDownload(rev, obj, s, folderName, prm, colls, log) == Success(o) by {
      LandsatUnfold(rev, obj, s, folderName, prm, colls, log, sel, name);
    }
    OutcomeNamedByDates(obj, sel, name, p.0, p.1, prm.dem, o.log);
  }

  /** With `landsat` set, the exports that end the Landsat branch are named,
      in order, by the dates the object records: `L8Dates`, then `L7Dates`,
      then `L5Dates`, each into the glacier's folder. */
  lemma ExportNamesAreRecordedDates(rev: Revision, obj: map<string, Value>, s: Session, folderName: string,
                                    prm: Params, colls: Collections, log: LogFile)
    requires "bbox" in obj && !prm.gmted && prm.landsat
    requires SelectScenes(rev, prm, colls).Success? && GlacierName(obj).Success?
    ensures EeDownload(rev, obj, s, folderName, prm, colls, log).Success?
    ensures ExportsNamedByDates(EeDownload(rev, obj, s, folderName, prm, colls, log).value)
  {
    LandsatNamedByDates(rev, obj, s, folderName, prm, colls, log,
                        SelectScenes(rev, prm, colls).value, GlacierName(obj).value);
    assert EeDownload(rev, obj, s, folderName, prm, colls, log)
           == LandsatDownload(rev, obj, s, folderName, prm, colls, log);
  }

  /** Corrected, a scene of a sensor's collection is selected exactly when
      it was acquired in the requested range, while that sensor was
      operational, and below the cloud tolerance. */
  lemma CorrectedSelectsRequestedScenes(sensor: Sensor, scenes: seq<Scene>, beg: Date, end: Date,
                                        cloudTol: real, x: Scene)
    ensures x in Select(scenes, WindowOf(sensor, beg, end), cloudTol)
            <==> && x in scenes
                 && InWindow(x.acquired, Window(beg, end))
                 && Operational(sensor, x.acquired)
                 && x.cloud < cloudTol
  {
    WindowIsIntersection(sensor, beg, end, x.acquired);
  }

  /** The collection of one sensor. */
  function Collection(colls: Collections, sensor: Sensor): seq<Scene>
  {
    match sensor
    case Landsat8 => colls.l8
    case Landsat7 => colls.l7
    case Landsat5 => colls.l5
  }

  /** What the caller asks for: a scene acquired in the requested range,
      while its sensor was operational, below the cloud tolerance. */
  predicate Requested(sensor: Sensor, x: Scene, beg: Date, end: Date, cloudTol: real)
  {
    && InWindow(x.acquired, Window(beg, end))
    && Operational(sensor, x.acquired)
    && x.cloud < cloudTol
  }

  /** The export of one scene into `folder`, named by its date. */
  function SceneExport(x: Scene, folder: string): Event
  {
    Export(x.id, folder, Format(x.acquired), ExportScale)
  }

  lemma {:induction false} SceneExportsMembers(scenes: seq<Scene>, folder: string)
    ensures forall x :: x in scenes ==> SceneExport(x, folder) in SceneExports(scenes, folder)
    ensures forall e :: e in SceneExports(scenes, folder) ==>
              exists x :: x in scenes && e == SceneExport(x, folder)
  {
    if scenes != [] {
      SceneExportsMembers(scenes[1..], folder);
      assert SceneExports(scenes, folder) == [SceneExport(scenes[0], folder)] + SceneExports(scenes[1..], folder);
      forall x | x in scenes ensures SceneExport(x, folder) in SceneExports(scenes, folder) {
        if x != scenes[0] {
          assert x in scenes[1..];
        }
      }
      forall e | e in SceneExports(scenes, folder)
        ensures exists x :: x in scenes && e == SceneExport(x, folder)
      {
        if e != SceneExport(scenes[0], folder) {
          var x :| x in scenes[1..] && e == SceneExport(x, folder);
          assert x in scenes;
        } else {
          assert scenes[0] in scenes;
        }
      }
    }
  }

  /** Corrected, any parseable range selects each sensor's collection
      through that sensor's intended window. */
  lemma CorrectedSelection(prm: Params, colls: Collections, beg: Date, end: Date)
    requires Parse(prm.begDate) == Success(beg) && Parse(prm.endDate) == Success(end)
    ensures SelectScenes(Corrected, prm, colls)
            == Success(Selection(Select(colls.l8, WindowOf(Landsat8, beg, end), prm.cloudTol),
                                 Select(colls.l7, WindowOf(Landsat7, beg, end), prm.cloudTol),
                                 Select(colls.l5, WindowOf(Landsat5, beg, end), prm.cloudTol)))
  {
  }

  /** Corrected, the selection holds exactly the requested scenes of the
      three collections. */
  lemma SelectionIsRequested(prm: Params, colls: Collections, beg: Date, end: Date, sel: Selection, x: Scene)
    requires Parse(prm.begDate) == Success(beg) && Parse(prm.endDate) == Success(end)
    requires SelectScenes(Corrected, prm, colls) == Success(sel)
    ensures x in sel.All()
            <==> exists sensor :: x in Collection(colls, sensor) && Requested(sensor, x, beg, end, prm.cloudTol)
  {
    CorrectedSelection(prm, colls, beg, end);
    CorrectedSelectsRequestedScenes(Landsat8, colls.l8, beg, end, prm.cloudTol, x);
    CorrectedSelectsRequestedScenes(Landsat7, colls.l7, beg, end, prm.cloudTol, x);
    CorrectedSelectsRequestedScenes(Landsat5, colls.l5, beg, end, prm.cloudTol, x);
    if x in sel.l8 {
      assert x in Collection(colls, Landsat8) && Requested(Landsat8, x, beg, end, prm.cloudTol);
    } else if x in sel.l7 {
      assert x in Collection(colls, Landsat7) && Requested(Landsat7, x, beg, end, prm.cloudTol);
    } else if x in sel.l5 {
      assert x in Collection(colls, Landsat5) && Requested(Landsat5, x, beg, end, prm.cloudTol);
    }
  }

  /** Provisioning adds Drive requests only, no export. */
  lemma ProvisionMakesNoExports(s: Session, folderName: string, name: string)
    ensures var t := Provision(s, folderName, name).1.trace;
            && |s.trace| <= |t| && t[..|s.trace|] == s.trace
            && forall e :: e in t[|s.trace|..] ==> !e.Export?
  {
    ProvisionCreatesGlacierFolder(s, folderName, name);
  }

  /** A trace made of provisioning requests followed by the SRTM export and
      the scene exports holds, past its old prefix, every scene export and no
      other export besides the SRTM one. */
  lemma {:induction false} AddedExports(before: seq<Event>, prov: seq<Event>, dem: bool,
                                        scenes: seq<Scene>, name: string)
    requires |before| <= |prov| && prov[..|before|] == before
    requires forall e :: e in prov[|before|..] ==> !e.Export?
    ensures var t := prov + DemExports(dem, name) + SceneExports(scenes, name);
            && |before| <= |t|
            && (forall e :: e in SceneExports(scenes, name) ==> e in t[|before|..])
            && (forall e :: e in t[|before|..] && e.Export? && e.asset != SrtmAsset ==>
                  e in SceneExports(scenes, name))
  {
    var tail := DemExports(dem, name) + SceneExports(scenes, name);
    var t := prov + tail;
    assert prov + DemExports(dem, name) + SceneExports(scenes, name) == t;
    assert t[|before|..] == prov[|before|..] + tail;
    forall e | e in SceneExports(scenes, name)
      ensures e in t[|before|..]
    {
      assert e in tail;
    }
    forall e | e in t[|before|..] && e.Export? && e.asset != SrtmAsset
      ensures e in SceneExports(scenes, name)
    {
      assert e !in prov[|before|..];
      assert e !in DemExports(dem, name);
    }
  }

  lemma SessionExports(before: seq<Event>, s1: Session, dem: bool, scenes: seq<Scene>, name: string)
    requires |before| <= |s1.trace| && s1.trace[..|before|] == before
    requires forall e :: e in s1.trace[|before|..] ==> !e.Export?
    ensures var t := s1.AppendAll(DemExports(dem, name) + SceneExports(scenes, name)).trace;
            && |before| <= |t|
            && (forall e :: e in SceneExports(scenes, name) ==> e in t[|before|..])
            && (forall e :: e in t[|before|..] && e.Export? && e.asset != SrtmAsset ==>
                  e in SceneExports(scenes, name))
  {
    AddedExports(before, s1.trace, dem, scenes, name);
    assert s1.AppendAll(DemExports(dem, name) + SceneExports(scenes, name)).trace
           == s1.trace + DemExports(dem, name) + SceneExports(scenes, name);
  }

  /** What a successful Landsat branch adds to the trace: the provisioning
      requests, which export nothing, the SRTM export if any, and the scene
      exports of the selection. */
  lemma {:induction false} LandsatAdded(rev: Revision, obj: map<string, Value>, s: Session, folderName: string,
                                        prm: Params, colls: Collections, log: LogFile, sel: Selection, name: string)
    requires prm.landsat
    requires SelectScenes(rev, prm, colls) == Success(sel) && GlacierName(obj) == Success(name)
    ensures LandsatDownload(rev, obj, s, folderName, prm, colls, log).Success?
    ensures var t := LandsatDownload(rev, obj, s, folderName, prm, colls, log).value.session.trace;
            && |s.trace| <= |t|
            && (forall e :: e in SceneExports(sel.All(), name) ==> e in t[|s.trace|..])
            && (forall e :: e in t[|s.trace|..] && e.Export? && e.asset != SrtmAsset ==>
                  e in SceneExports(sel.All(), name))
  {
    var p := Provision(s, folderName, name);
    var g := Annotate(obj, sel, name, p.0);
    var o := Outcome(g, p.1.AppendAll(DemExports(prm.dem, name) + SceneExports(sel.All(), name)), AppendLog(rev, log, g));
    assert LandsatDownload(rev, obj, s, folderName, prm, colls, log) == Success(o) by {
      LandsatUnfold(rev, obj, s, folderName, prm, colls, log, sel, name);
    }
    ProvisionMakesNoExports(s, folderName, name);
    SessionExports(s.trace, p.1, prm.dem, sel.All(), name);
  }

  /** Corrected, with `landsat` set, the scene exports a call submits are
      exactly those of the requested scenes: every scene of a sensor's
      collection acquired in the requested range, while the sensor was
      operational, and clear enough is exported into the glacier's folder,
      and every export other than the SRTM one is such a scene's. Any
      parseable range succeeds, an early one included. */
  lemma CorrectedExportsRequestedScenes(obj: map<string, Value>, s: Session, folderName: string,
                                        prm: Params, colls: Collections, log: LogFile,
                                        beg: Date, end: Date, name: string)
    requires "bbox" in obj && !prm.gmted && prm.landsat
    requires Parse(prm.begDate) == Success(beg) && Parse(prm.endDate) == Success(end)
    requires GlacierName(obj) == Success(name)
    ensures EeDownload(Corrected, obj, s, folderName, prm, colls, log).Success?
    ensures var t := EeDownload(Corrected, obj, s, folderName, prm, colls, log).value.session.trace;
            && |s.trace| <= |t|
            && (forall sensor, x :: x in Collection(colls, sensor) && Requested(sensor, x, beg, end, prm.cloudTol)
                  ==> SceneExport(x, name) in t[|s.trace|..])
            && (forall e :: e in t[|s.trace|..] && e.Export? && e.asset != SrtmAsset ==>
                  exists sensor, x :: && x in Collection(colls, sensor)
                                      && Requested(sensor, x, beg, end, prm.cloudTol)
                                      && e == SceneExport(x, name))
  {
    CorrectedSelection(prm, colls, beg, end);
    var sel := SelectScenes(Corrected, prm, colls).value;
    LandsatAdded(Corrected, obj, s, folderName, prm, colls, log, sel, name);
    assert EeDownload(Corrected, obj, s, folderName, prm, colls, log)
           == LandsatDownload(Corrected, obj, s, folderName, prm, colls, log);
    SceneExportsMembers(sel.All(), name);
    var t := EeDownload(Corrected, obj, s, folderName, prm, colls, log).value.session.trace;
    forall sensor, x | x in Collection(colls, sensor) && Requested(sensor, x, beg, end, prm.cloudTol)
      ensures SceneExport(x, name) in t[|s.trace|..]
    {
      SelectionIsRequested(prm, colls, beg, end, sel, x);
    }
    forall e | e in t[|s.trace|..] && e.Export? && e.asset != SrtmAsset
      ensures exists sensor, x :: && x in Collection(colls, sensor)
                                  && Requested(sensor, x, beg, end, prm.cloudTol)
                                  && e == SceneExport(x, name)
    {
      var x :| x in sel.All() && e == SceneExport(x, name);
      SelectionIsRequested(prm, colls, beg, end, sel, x);
    }
  }

  /** As written, a range that ends by 2013-01-01 makes the Landsat branch
      fail after the collections are built and before any request is made;
      corrected, the same call proceeds with no Landsat 8 scenes. */
  lemma AsWrittenFailsOnEarlyRange(obj: map<string, Value>, s: Session, folderName: string,
                                   prm: Params, colls: Collections, log: LogFile)
    requires "bbox" in obj && !prm.gmted
    requires Parse(prm.begDate).Success? && Parse(prm.endDate).Success?
    requires !Before(L8Start, Parse(prm.endDate).value)
    ensures EeDownload(AsWritten, obj, s, folderName, prm, colls, log)
            == Failure(NameError("collectionSizeL8"))
    ensures GlacierName(obj).Success? ==>
              && EeDownload(Corrected, obj, s, folderName, prm, colls, log).Success?
              && EeDownload(Corrected, obj, s, folderName, prm, colls, log).value.glacier["L8Dates"] == Texts([])
  {
    EarlySelection(prm, colls);
    if GlacierName(obj).Success? {
      var sel := SelectScenes(Corrected, prm, colls).value;
      var name := GlacierName(obj).value;
      var p := Provision(s, folderName, name);
      AnnotateRecordsDates(obj, sel, name, p.0);
    }
  }

  /** For a range ending by 2013-01-01, selection as written fails, and
      corrected it selects no Landsat 8 scene. */
  lemma EarlySelection(prm: Params, colls: Collections)
    requires Parse(prm.begDate).Success? && Parse(prm.endDate).Success?
    requires !Before(L8Start, Parse(prm.endDate).value)
    ensures SelectScenes(AsWritten, prm, colls) == Failure(NameError("collectionSizeL8"))
    ensures SelectScenes(Corrected, prm, colls).Success?
    ensures SelectScenes(Corrected, prm, colls).value.l8 == []
  {
    var beg := Parse(prm.begDate).value;
    var end := Parse(prm.endDate).value;
    var w := L8Window(beg, end);
    forall x | x in colls.l8 ensures !InWindow(x.acquired, w) {
      L8AsWrittenUnboundForEarlyRange(beg, end, x.acquired);
    }
    SelectNothing(colls.l8, w, prm.cloudTol);
  }

  /** Provisioning creates one or two folders: the parent only when the
      lookup by name fails, then always a new folder for the glacier, whose
      parent is the folder found or just created and whose id the call
      returns. */
  lemma ProvisionCreatesGlacierFolder(s: Session, folderName: string, name: string)
    ensures var (found, s1) := GetParentFolderId(s, folderName);
            var (folderId, s') := Provision(s, folderName, name);
            var n := |s.trace|;
            && folderId == s.service.mint(|s'.trace| - 1)
            && (found.Success? ==>
                  s'.trace == s.trace + [ListFolders(NameQuery(folderName), None),
                                         NewFolder(name, FolderMime, Parents(Some(found.value)), folderId)])
            && (found.Failure? ==>
                  var parentId := s.service.mint(n + 1);
                  s'.trace == s.trace + [ListFolders(NameQuery(folderName), None),
                                         NewFolder(folderName, FolderMime, [], parentId),
                                         NewFolder(name, FolderMime, Parents(Some(parentId)), folderId)])
  {
  }

  /** Two downloads of the same glacier create two distinct glacier folders
      and record different folder ids: the branch is not idempotent. The
      second may come at any later point of the session, after any other
      requests. */
  lemma RepeatedDownloadsMakeDistinctFolders(s: Session, t: Session, folderName: string, name: string)
    requires FreshIds(s.service) && t.service == s.service
    requires |Provision(s, folderName, name).1.trace| <= |t.trace|
    ensures Provision(s, folderName, name).0 != Provision(t, folderName, name).0
  {
    var p := Provision(s, folderName, name);
    var q := Provision(t, folderName, name);
    ProvisionCreatesGlacierFolder(s, folderName, name);
    ProvisionCreatesGlacierFolder(t, folderName, name);
    assert |p.1.trace| - 1 < |q.1.trace| - 1;
  }

  /** Corrected, every call that reaches the log adds the glacier's record as
      the last line, after a header when the file was missing or empty, and
      keeps the earlier lines. */
  lemma CorrectedLogKeepsEveryRecord(log: LogFile, obj: map<string, Value>)
    ensures var r := AppendLog(Corrected, log, obj);
            && |r.lines| > 0
            && r.lines[|r.lines| - 1] == Record(obj)
            && (log.Present? && log.lines != [] ==> r.lines == log.lines + [Record(obj)])
            && (log.Missing? || log.lines == [] ==> r.lines == [Header(obj.Keys), Record(obj)])
  {
  }

  /** The log after a run of calls, one object per call, in order. */
  function AppendLogs(rev: Revision, log: LogFile, objs: seq<map<string, Value>>): (r: LogFile)
    decreases |objs|
  {
    if objs == [] then log else AppendLogs(rev, AppendLog(rev, log, objs[0]), objs[1..])
  }

  /** One record line per object, in order. */
  function Records(objs: seq<map<string, Value>>): (ls: seq<LogLine>)
    ensures |ls| == |objs|
  {
    if objs == [] then [] else [Record(objs[0])] + Records(objs[1..])
  }

  /** Once the file has a line, every later call appends its record, under
      either revision. */
  lemma {:induction false} LogAppendsRecords(rev: Revision, lines: seq<LogLine>, objs: seq<map<string, Value>>)
    requires lines != []
    ensures AppendLogs(rev, Present(lines), objs) == Present(lines + Records(objs))
    decreases |objs|
  {
    if objs != [] {
      LogAppendsRecords(rev, lines + [Record(objs[0])], objs[1..]);
      assert lines + [Record(objs[0])] + Records(objs[1..]) == lines + Records(objs);
    }
  }

  /** The first call of a run, taken on its own. */
  lemma AppendLogsFirst(rev: Revision, log: LogFile, objs: seq<map<string, Value>>)
    requires objs != []
    ensures AppendLogs(rev, log, objs) == AppendLogs(rev, AppendLog(rev, log, objs[0]), objs[1..])
  {
  }

  lemma RecordsFirst(objs: seq<map<string, Value>>)
    requires objs != []
    ensures Records(objs) == [Record(objs[0])] + Records(objs[1..])
  {
  }

  /** Corrected, a run starting from a missing file leaves one header, from
      the first object's columns, and then every object's record in order. */
  lemma CorrectedLogOfRun(objs: seq<map<string, Value>>)
    requires objs != []
    ensures AppendLogs(Corrected, Missing, objs) == Present([Header(objs[0].Keys)] + Records(objs))
  {
    var h := Header(objs[0].Keys);
    var first := [h, Record(objs[0])];
    assert AppendLogs(Corrected, Missing, objs) == AppendLogs(Corrected, Present(first), objs[1..]) by {
      AppendLogsFirst(Corrected, Missing, objs);
      assert AppendLog(Corrected, Missing, objs[0]) == Present(first);
    }
    assert AppendLogs(Corrected, Present(first), objs[1..]) == Present(first + Records(objs[1..])) by {
      LogAppendsRecords(Corrected, first, objs[1..]);
    }
    assert first + Records(objs[1..]) == [h] + Records(objs) by {
      RecordsFirst(objs);
    }
  }

  /** As written, the same run loses exactly the first record. */
  lemma AsWrittenLogOfRun(objs: seq<map<string, Value>>)
    requires objs != []
    ensures AppendLogs(AsWritten, Missing, objs) == Present([Header(objs[0].Keys)] + Records(objs[1..]))
  {
    var h := Header(objs[0].Keys);
    AppendLogsFirst(AsWritten, Missing, objs);
    assert AppendLog(AsWritten, Missing, objs[0]) == Present([h]);
    LogAppendsRecords(AsWritten, [h], objs[1..]);
  }

  /** As written, the first glacier logged when the file is missing leaves
      only its column names: its record is never written. */
  lemma AsWrittenLosesFirstRecord(obj: map<string, Value>)
    ensures AppendLog(AsWritten, Missing, obj) == Present([Header(obj.Keys)])
    ensures forall l :: l in AppendLog(AsWritten, Missing, obj).lines ==> !l.Record?
    ensures AppendLog(Corrected, Missing, obj) == Present([Header(obj.Keys), Record(obj)])
  {
  }
}

=== FILE: pipeline.dfy ===
/** The driver of `src/main.py`: where the GLIMS ids come from (a list, or
    a text split on a delimiter), the subset of the joined table they
    select, and the one-at-a-time, in-order dispatch of `single_glacier`,
    which always takes the GMTED path of `ee_download`. */
module Pipeline {
  import opened Prelude
  import opened Remote
  import opened Drive
  import opened Catalog
  import opened Gee

  // ---------------------------------------------------------------------
  // `str.split(delim)` and its inverse `delim.join`
  // ---------------------------------------------------------------------

  /** `d` occurs in `s` starting at index `i`. */
  predicate OccursAt(s: string, d: string, i: int)
  {
    0 <= i && i + |d| <= |s| && s[i..i + |d|] == d
  }

  predicate Contains(s: string, d: string)
  {
    exists i :: 0 <= i <= |s| && OccursAt(s, d, i)
  }

  /** The first occurrence of `d` in `s` at or after `from`, or -1. */
  function FindFrom(s: string, d: string, from: nat): (i: int)
    requires |d| > 0
    ensures i == -1 || (from <= i && OccursAt(s, d, i))
    decreases |s| - from
  {
    if from + |d| > |s| then -1
    else if s[from..from + |d|] == d then from
    else FindFrom(s, d, from + 1)
  }

  function Find(s: string, d: string): (i: int)
    requires |d| > 0
    ensures i == -1 || OccursAt(s, d, i)
  {
    FindFrom(s, d, 0)
  }

  /** `FindFrom` finds the leftmost occurrence: none lies before it. */
  lemma {:induction false} FindFromFirst(s: string, d: string, from: nat, j: int)
    requires |d| > 0 && from <= j
    requires var i := FindFrom(s, d, from); i == -1 || j < i
    ensures !OccursAt(s, d, j)
    decreases |s| - from
  {
    if from + |d| <= |s| && s[from..from + |d|] != d && from < j {
      FindFromFirst(s, d, from + 1, j);
    }
  }

  /** `Find` finds the leftmost occurrence, and -1 exactly when there is
      none. */
  lemma FindFirst(s: string, d: string)
    requires |d| > 0
    ensures var i := Find(s, d);
            && (i == -1 <==> !Contains(s, d))
            && forall j :: 0 <= j && (i == -1 || j < i) ==> !OccursAt(s, d, j)
  {
    forall j | 0 <= j && (Find(s, d) == -1 || j < Find(s, d)) ensures !OccursAt(s, d, j) {
      FindFromFirst(s, d, 0, j);
    }
  }

  /** Python's `s.split(d)` for a non-empty `d`: cut at the leftmost
      occurrence, then split the rest. */
  function Split(s: string, d: string): (pieces: seq<string>)
    requires |d| > 0
    ensures |pieces| >= 1
    decreases |s|
  {
    var i := Find(s, d);
    if i == -1 then [s] else [s[..i]] + Split(s[i + |d|..], d)
  }

  /** Python's `d.join(pieces)`. */
  function Join(pieces: seq<string>, d: string): string
  {
    if pieces == [] then []
    else if |pieces| == 1 then pieces[0]
    else pieces[0] + d + Join(pieces[1..], d)
  }

  /** Python's `s.count(d)`: leftmost, non-overlapping occurrences. */
  function Count(s: string, d: string): nat
    requires |d| > 0
    decreases |s|
  {
    var i := Find(s, d);
    if i == -1 then 0 else 1 + Count(s[i + |d|..], d)
  }

  /** Joining the pieces with the delimiter gives back the text. */
  lemma {:induction false} JoinSplit(s: string, d: string)
    requires |d| > 0
    ensures Join(Split(s, d), d) == s
    decreases |s|
  {
    var i := Find(s, d);
    if i != -1 {
      var rest := s[i + |d|..];
      var pieces := Split(s, d);
      assert pieces == [s[..i]] + Split(rest, d);
      assert pieces[1..] == Split(rest, d);
      assert Join(pieces, d) == s[..i] + d + Join(Split(rest, d), d);
      JoinSplit(rest, d);
      assert s == s[..i] + s[i..i + |d|] + rest;
    }
  }

  /** The text before the first occurrence does not contain the
      delimiter. */
  lemma HeadHasNoDelimiter(s: string, d: string)
    requires |d| > 0 && Find(s, d) != -1
    ensures !Contains(s[..Find(s, d)], d)
  {
    var i := Find(s, d);
    var head := s[..i];
    FindFirst(s, d);
    forall j | 0 <= j <= |head| ensures !OccursAt(head, d, j) {
      if j + |d| <= |head| {
        assert head[j..j + |d|] == s[j..j + |d|];
        assert !OccursAt(s, d, j);
      }
    }
  }

  /** No piece contains the delimiter. */
  lemma {:induction false} SplitPiecesLackDelimiter(s: string, d: string)
    requires |d| > 0
    ensures forall p :: p in Split(s, d) ==> !Contains(p, d)
    decreases |s|
  {
    var i := Find(s, d);
    if i == -1 {
      FindFirst(s, d);
    } else {
      var rest := s[i + |d|..];
      SplitPiecesLackDelimiter(rest, d);
      HeadHasNoDelimiter(s, d);
      assert Split(s, d) == [s[..i]] + Split(rest, d);
    }
  }

  /** There is one piece more than there are occurrences. */
  lemma {:induction false} SplitCount(s: string, d: string)
    requires |d| > 0
    ensures |Split(s, d)| == Count(s, d) + 1
    decreases |s|
  {
    var i := Find(s, d);
    if i != -1 {
      var rest := s[i + |d|..];
      SplitCount(rest, d);
      assert |Split(s, d)| == 1 + |Split(rest, d)|;
    }
  }

  /** Empty pieces are kept: the text that is just the delimiter splits into
      two empty ids, and the empty text into one. */
  lemma EmptyPiecesKept(d: string)
    requires |d| > 0
    ensures Split(d, d) == ["", ""]
    ensures Split("", d) == [""]
  {
    assert OccursAt(d, d, 0);
    assert d[|d|..] == "";
    assert !OccursAt("", d, 0);
  }

  /** With a one-character delimiter that occurs in no id, splitting the
      joined ids gives the ids back. */
  lemma {:induction false} SplitJoin(pieces: seq<string>, d: string)
    requires |d| == 1 && |pieces| >= 1
    requires forall p :: p in pieces ==> !Contains(p, d)
    ensures Split(Join(pieces, d), d) == pieces
  {
    var s := Join(pieces, d);
    var p := pieces[0];
    assert p in pieces;
    if |pieces| == 1 {
      assert s == p;
      assert Find(s, d) == -1;
    } else {
      var rest := Join(pieces[1..], d);
      assert s == p + d + rest;
      forall j | 0 <= j < |p| ensures !OccursAt(s, d, j) {
        assert s[j..j + |d|] == p[j..j + |d|];
        assert !OccursAt(p, d, j);
      }
      assert OccursAt(s, d, |p|) by {
        assert s[|p|..|p| + |d|] == d;
      }
      FindFirst(s, d);
      assert Find(s, d) == |p|;
      assert s[..|p|] == p;
      assert s[|p| + 1..] == rest;
      forall q | q in pieces[1..] ensures !Contains(q, d) {
        assert q in pieces;
      }
      SplitJoin(pieces[1..], d);
      assert pieces == [p] + pieces[1..];
    }
  }

  // ---------------------------------------------------------------------
  // `run_pipeline`
  // ---------------------------------------------------------------------

  /** Where `glims_id_input` points: a list of ids, or a text file, given by
      its path and its contents. */
  datatype IdSource = IdList(ids: seq<string>) | IdFile(path: string, contents: string)

  /** `ids_list`: the file split on `delim` when `delim` is truthy, the input
      itself otherwise. A list where a file is expected fails in `open`; a
      file's path where a list is expected is passed on as a plain string,
      which only `prep_joined` refuses. */
  function ResolveIds(input: IdSource, delim: Option<string>): (r: Result<IsinArg>)
    ensures r.Failure? <==> input.IdList? && Truthy(delim)
    ensures r.Failure? ==> r.error == TypeError
    ensures r.Success? && r.value.ListLike? ==>
              if Truthy(delim) then input.IdFile? && r.value.ids == Split(input.contents, delim.value)
              else input.IdList? && r.value.ids == input.ids
    ensures r.Success? && r.value.PlainString? <==> input.IdFile? && !Truthy(delim)
    ensures r.Success? && r.value.PlainString? ==> r.value.text == input.path
  {
    match input
    case IdFile(path, contents) =>
      if Truthy(delim) then Success(ListLike(Split(contents, delim.value))) else Success(PlainString(path))
    case IdList(ids) => if Truthy(delim) then Failure(TypeError) else Success(ListLike(ids))
  }

  /** The factor `id_query` scales the envelope by when called with its
      default. */
  const ScaleFactor: real := 1.1

  /** `single_glacier`: query the glacier's attributes, then `ee_download`
      with every keyword at its default, so the GMTED path. */
  function SingleGlacier(glimsId: string, subset: Table, s: Session, folderName: string,
                         colls: Collections, log: LogFile): (r: Result<Outcome>)
  {
    var q :- IdQuery(glimsId, subset, ScaleFactor);
    EeDownload(Corrected, q, s, folderName, Defaults, colls, log)
  }

  /** The two requests one glacier makes on the GMTED path. */
  function GmtedEvents(glimsId: string): seq<Event>
  {
    [ListFolders(NameQuery(glimsId), None), Export(GmtedAsset, glimsId, GmtedPrefix, ExportScale)]
  }

  /** `single_glacier` never touches the glacier's Landsat collections or
      the log; when the id is queried, it looks the id up as a folder name
      and exports the GMTED image into the folder of that name. A query
      result without `glac_id` (the empty id, alone in its frame) fails at
      the folder lookup's `glacierObject['glac_id']`. */
  lemma SingleGlacierIsGmted(glimsId: string, subset: Table, s: Session, folderName: string,
                             colls: Collections, log: LogFile)
    ensures IdQuery(glimsId, subset, ScaleFactor).Failure? ==>
              SingleGlacier(glimsId, subset, s, folderName, colls, log).Failure?
    ensures var r := SingleGlacier(glimsId, subset, s, folderName, colls, log);
            var first := s.service.listing(NameQuery(glimsId))[0];
            var q := IdQuery(glimsId, subset, ScaleFactor);
            q.Success? ==>
              && (GlacId !in q.value ==> r == Failure(KeyError(GlacId)))
              && (r.Success? <==> GlacId in q.value && 0 <= LastIndex(first.files, glimsId))
              && (r.Success? ==>
                    && r.value.log == log
                    && r.value.session == s.AppendAll(GmtedEvents(glimsId)))
  {
    if IdQuery(glimsId, subset, ScaleFactor).Success? {
      var q := IdQuery(glimsId, subset, ScaleFactor).value;
      IdQueryKeepsId(glimsId, subset, ScaleFactor);
      if GlacId in q {
        GmtedOnlyExportsElevation(Corrected, q, s, folderName, Defaults, colls, log, glimsId);
      }
    }
  }

  /** What a run leaves behind: the ids dispatched and finished, in order,
      the session and the log, and the id the run stopped at, if any. The
      source retries a failing glacier without bound; against a fixed
      remote every retry fails alike, so the run never gets past it. */
  datatype Run = Run(done: seq<string>, session: Session, log: LogFile, stuck: Option<string>)

  /** One glacier's work, as a function of its id, the session and the log
      it starts from. */
  type Step = (string, Session, LogFile) -> Result<Outcome>

  /** `single_glacier` with the run's fixed arguments bound. */
  function GlacierStep(subset: Table, folderName: string, colls: Collections): Step
  {
    (glimsId, s, log) => SingleGlacier(glimsId, subset, s, folderName, colls, log)
  }

  /** A step that, when it succeeds, makes exactly the GMTED requests for
      its id and leaves the log alone. */
  ghost predicate GmtedStep(step: Step)
  {
    forall glimsId, s, log :: step(glimsId, s, log).Success? ==>
      && step(glimsId, s, log).value.session == s.AppendAll(GmtedEvents(glimsId))
      && step(glimsId, s, log).value.log == log
  }

  lemma GlacierStepIsGmted(subset: Table, folderName: string, colls: Collections)
    ensures GmtedStep(GlacierStep(subset, folderName, colls))
  {
    forall glimsId, s, log ensures
      var o := GlacierStep(subset, folderName, colls)(glimsId, s, log);
      o.Success? ==> o.value.session == s.AppendAll(GmtedEvents(glimsId)) && o.value.log == log
    {
      SingleGlacierIsGmted(glimsId, subset, s, folderName, colls, log);
    }
  }

  /** The reference dispatch: each id in turn, until one fails. */
  function Dispatch(ids: seq<string>, step: Step, s: Session, log: LogFile): (r: Run)
    decreases |ids|
  {
    if ids == [] then Run([], s, log, None)
    else
      var o := step(ids[0], s, log);
      if o.Failure? then Run([], s, log, Some(ids[0]))
      else
        var rest := Dispatch(ids[1..], step, o.value.session, o.value.log);
        rest.(done := [ids[0]] + rest.done)
  }

  /** The concatenated GMTED requests of a sequence of ids. */
  function AllGmtedEvents(ids: seq<string>): (es: seq<Event>)
    ensures |es| == 2 * |ids|
  {
    if ids == [] then [] else GmtedEvents(ids[0]) + AllGmtedEvents(ids[1..])
  }

  /** The dispatch is strictly in input order, duplicates included: the ids
      finished are a prefix of the list, and the run stops exactly at the
      first id whose step fails. */
  lemma {:induction false} DispatchInOrder(ids: seq<string>, step: Step, s: Session, log: LogFile)
    ensures var r := Dispatch(ids, step, s, log);
            && |r.done| <= |ids|
            && r.done == ids[..|r.done|]
            && (r.stuck.None? <==> r.done == ids)
            && (r.stuck.Some? ==> r.stuck.value == ids[|r.done|] && step(ids[|r.done|], r.session, r.log).Failure?)
    decreases |ids|
  {
    if ids != [] {
      var o := step(ids[0], s, log);
      if o.Success? {
        DispatchInOrder(ids[1..], step, o.value.session, o.value.log);
        assert ids == [ids[0]] + ids[1..];
      }
    }
  }

  /** With the GMTED step, each finished id made its two requests, in
      order, and the log is never written. */
  lemma {:induction false} DispatchRequests(ids: seq<string>, step: Step, s: Session, log: LogFile)
    requires GmtedStep(step)
    ensures var r := Dispatch(ids, step, s, log);
            && r.session == s.AppendAll(AllGmtedEvents(r.done))
            && r.log == log
    decreases |ids|
  {
    if ids != [] {
      var o := step(ids[0], s, log);
      if o.Success? {
        var s1 := o.value.session;
        assert s1 == s.AppendAll(GmtedEvents(ids[0])) && o.value.log == log;
        DispatchRequests(ids[1..], step, s1, log);
        var rest := Dispatch(ids[1..], step, s1, log);
        assert ([ids[0]] + rest.done)[1..] == rest.done;
        assert AllGmtedEvents([ids[0]] + rest.done) == GmtedEvents(ids[0]) + AllGmtedEvents(rest.done);
      } else {
        assert s.AppendAll([]) == s;
      }
    } else {
      assert s.AppendAll([]) == s;
    }
  }

  /** The folders the GMTED exports go into, in order. */
  function ExportFolders(es: seq<Event>): seq<string>
  {
    if es == [] then []
    else (if es[0].Export? then [es[0].folder] else []) + ExportFolders(es[1..])
  }

  lemma {:induction false} ExportFoldersAppend(a: seq<Event>, b: seq<Event>)
    ensures ExportFolders(a + b) == ExportFolders(a) + ExportFolders(b)
  {
    if a != [] {
      assert (a + b)[1..] == a[1..] + b;
      ExportFoldersAppend(a[1..], b);
    } else {
      assert a + b == b;
    }
  }

  /** One GMTED export per finished id, into the folder named by the id, in
      the order of the list. */
  lemma {:induction false} OneExportPerId(ids: seq<string>)
    ensures ExportFolders(AllGmtedEvents(ids)) == ids
  {
    if ids != [] {
      ExportFoldersAppend(GmtedEvents(ids[0]), AllGmtedEvents(ids[1..]));
      OneExportPerId(ids[1..]);
      assert ExportFolders(GmtedEvents(ids[0])) == [ids[0]];
      assert ids == [ids[0]] + ids[1..];
    }
  }

  /** A run of `single_glacier` over the ids exports the GMTED image once
      per finished id, into the folder named by the id, in list order; it
      stops only at an id whose step fails, and never writes the log. */
  lemma RunExportsOncePerId(ids: seq<string>, subset: Table, folderName: string, colls: Collections,
                            s: Session, log: LogFile)
    ensures var r := Dispatch(ids, GlacierStep(subset, folderName, colls), s, log);
            && r.done <= ids
            && r.session.trace == s.trace + AllGmtedEvents(r.done)
            && ExportFolders(r.session.trace) == ExportFolders(s.trace) + r.done
            && r.log == log
            && (r.stuck.None? <==> r.done == ids)
            && (r.stuck.Some? ==>
                  SingleGlacier(r.stuck.value, subset, r.session, folderName, colls, log).Failure?)
  {
    var step := GlacierStep(subset, folderName, colls);
    var r := Dispatch(ids, step, s, log);
    GlacierStepIsGmted(subset, folderName, colls);
    DispatchInOrder(ids, step, s, log);
    DispatchRequests(ids, step, s, log);
    OneExportPerId(r.done);
    ExportFoldersAppend(s.trace, AllGmtedEvents(r.done));
  }

  /** The run continued with `done` already finished. */
  function After(done: seq<string>, r: Run): Run
  {
    r.(done := done + r.done)
  }

  /** `run_pipeline` after authentication: resolve the ids, select their
      rows of the joined table, then call `single_glacier` for each id in
      order. Fails before any request when the ids or the table are
      unusable. */
  method RunPipeline(input: IdSource, delim: Option<string>, joined: Table, s: Session,
                     folderName: string, colls: Collections, log: LogFile)
    returns (r: Result<Run>)
    ensures ResolveIds(input, delim).Failure? ==> r == Failure(TypeError)
    ensures ResolveIds(input, delim).Success? && GlacId !in joined.columns ==>
              r == Failure(AttributeError(GlacId))
    ensures input.IdFile? && !Truthy(delim) && GlacId in joined.columns ==> r == Failure(TypeError)
    ensures r.Success? <==>
              && ResolveIds(input, delim).Success? && ResolveIds(input, delim).value.ListLike?
              && GlacId in joined.columns
    ensures r.Success? ==>
              var ids := ResolveIds(input, delim).value.ids;
              var subset := PrepJoined(ListLike(ids), joined).value;
              r.value == Dispatch(ids, GlacierStep(subset, folderName, colls), s, log)
  {
    var resolved := ResolveIds(input, delim);
    if resolved.Failure? {
      return Failure(resolved.error);
    }
    var prepared := PrepJoined(resolved.value, joined);
    if prepared.Failure? {
      return Failure(prepared.error);
    }
    var ids := resolved.value.ids;
    var run := DispatchAll(ids, GlacierStep(prepared.value, folderName, colls), s, log);
    return Success(run);
  }

  /** The `for` loop of `run_pipeline`: one step per id, in order, stopping
      at the first that fails. */
  method DispatchAll(ids: seq<string>, step: Step, s: Session, log: LogFile) returns (r: Run)
    ensures r == Dispatch(ids, step, s, log)
  {
    var session := s;
    var lg := log;
    var k := 0;
    while k < |ids|
      invariant 0 <= k <= |ids|
      invariant After(ids[..k], Dispatch(ids[k..], step, session, lg)) == Dispatch(ids, step, s, log)
      decreases |ids| - k
    {
      var o := step(ids[k], session, lg);
      DispatchStep(ids, k, step, session, lg);
      if o.Failure? {
        return Run(ids[..k], session, lg, Some(ids[k]));
      }
      session := o.value.session;
      lg := o.value.log;
      k := k + 1;
    }
    assert ids[..k] == ids && ids[k..] == [];
    return Run(ids, session, lg, None);
  }

  /** One turn of the loop, against the reference dispatch. */
  lemma DispatchStep(ids: seq<string>, k: nat, step: Step, s: Session, log: LogFile)
    requires k < |ids|
    ensures var o := step(ids[k], s, log);
            var r := After(ids[..k], Dispatch(ids[k..], step, s, log));
            && (o.Failure? ==> r == Run(ids[..k], s, log, Some(ids[k])))
            && (o.Success? ==> r == After(ids[..k + 1], Dispatch(ids[k + 1..], step, o.value.session, o.value.log)))
  {
    assert ids[k..][0] == ids[k];
    assert ids[k..][1..] == ids[k + 1..];
    assert ids[..k + 1] == ids[..k] + [ids[k]];
  }
}

=== FILE: prelude.dfy ===
/** Failure-compatible wrappers shared by every module of the model, and the
    kinds of Python exceptions the modelled code can raise. */
module Prelude {

  datatype Option<+T> = None | Some(value: T)

  /** The exceptions the modelled functions raise, by Python class. */
  datatype Error =
    | KeyError(key: string)          // missing dict key or DataFrame column
    | ValueError                     // a string that is not an ISO date, `dict()` of a scalar
    | ZeroDivisionError              // `% 0`
    | NameError(name: string)        // a name read before it was ever bound, `UnboundLocalError` included
    | AttributeError(name: string)   // attribute of a value of the wrong shape
    | PagesExhausted                 // the modelled listing has no further page to answer with
    | NotRenderable                  // `str()` of a geometry or list value (never a GLIMS id)
    | TypeError                      // `open()` of a list, `isin()` of a plain string

  datatype Result<+T> = Success(value: T) | Failure(error: Error) {

    predicate IsFailure() {
      Failure?
    }

    function PropagateFailure<U>(): Result<U>
      requires Failure?
    {
      Failure(error)
    }

    function Extract(): T
      requires Success?
    {
      value
    }
  }

  /** The set of elements of a sequence. */
  function Elements<T>(s: seq<T>): set<T>
  {
    set x | x in s
  }

  /** `a` is `b` with some elements left out and the rest in their order. */
  predicate IsSubsequence<T(==)>(a: seq<T>, b: seq<T>)
    decreases |b|
  {
    if b == [] then a == []
    else (a != [] && a[0] == b[0] && IsSubsequence(a[1..], b[1..])) || IsSubsequence(a, b[1..])
  }

  /** Appending to the longer sequence keeps a subsequence one, with or
      without appending the same element to the shorter. */
  lemma {:induction false} SubsequenceSnoc<T>(a: seq<T>, b: seq<T>, x: T)
    requires IsSubsequence(a, b)
    ensures IsSubsequence(a + [x], b + [x]) && IsSubsequence(a, b + [x])
    decreases |b|
  {
    if b == [] {
      assert IsSubsequence([x], [x]) by { assert [x][1..] == []; }
      assert a + [x] == [x];
    } else {
      assert (b + [x])[1..] == b[1..] + [x];
      if a != [] && a[0] == b[0] && IsSubsequence(a[1..], b[1..]) {
        SubsequenceSnoc(a[1..], b[1..], x);
        assert (a + [x])[1..] == a[1..] + [x];
      } else {
        SubsequenceSnoc(a, b[1..], x);
      }
    }
  }
}

=== FILE: remote.dfy ===
/** The remote services as the model sees them: the Drive folder listing
    answers each query with a fixed sequence of pages, the Drive service
    names each created folder, and every call the code makes to Drive or to
    Earth Engine's export service is appended to an event trace. */
module Remote {
  import opened Prelude

  /** One `files(id, name)` record of a listing response. */
  datatype FileRecord = FileRecord(name: string, id: string)

  /** One listing response: its records and its `nextPageToken`, if any. */
  datatype Page = Page(files: seq<FileRecord>, next: Option<string>)

  /** The pages the listing returns for one query, in the order it returns
      them when each request passes the previous response's token. */
  type Listing = s: seq<Page> | |s| > 0 witness [Page([], None)]

  /** The remote calls the modelled code makes; `NewFolder` is a
      `files().create` of a folder. */
  datatype Event =
    | ListFolders(q: string, pageToken: Option<string>)
    | NewFolder(name: string, mimeType: string, parents: seq<string>, id: string)
    | Export(asset: string, folder: string, prefix: string, scale: nat)

  /** How the remote side answers: the pages for each query, and the id the
      Drive service gives to a folder created by the trace's n-th event. */
  datatype Service = Service(listing: string -> Listing, mint: nat -> string)

  /** An authenticated session: the service and everything sent to it so far. */
  datatype Session = Session(service: Service, trace: seq<Event>) {

    function Append(e: Event): (s: Session)
      ensures s.trace == trace + [e]
    {
      Session(service, trace + [e])
    }

    function AppendAll(es: seq<Event>): (s: Session)
      ensures s.trace == trace + es
    {
      Session(service, trace + es)
    }
  }

  /** The service never hands out the same folder id twice. */
  ghost predicate FreshIds(svc: Service)
  {
    forall i: nat, j: nat :: i != j ==> svc.mint(i) != svc.mint(j)
  }

  function CountCreates(es: seq<Event>): (n: nat)
    ensures n <= |es|
  {
    if es == [] then 0
    else CountCreates(es[..|es| - 1]) + (if es[|es| - 1].NewFolder? then 1 else 0)
  }

  lemma {:induction false} CountCreatesAppend(a: seq<Event>, b: seq<Event>)
    ensures CountCreates(a + b) == CountCreates(a) + CountCreates(b)
  {
    if b != [] {
      assert (a + b)[..|a + b| - 1] == a + b[..|b| - 1];
      CountCreatesAppend(a, b[..|b| - 1]);
    } else {
      assert a + b == a;
    }
  }
}

=== FILE: sensors.dfy ===
/** The per-sensor date windows of `ee_download` (`src/gee.py`): for each
    Landsat generation, the half-open `[start, end)` range passed to the
    collection's `filterDate`. The windows as the source computes them are
    kept beside the windows it evidently intends, the intersection of the
    requested range with the sensor's operational period. */
module Sensors {
  import opened Prelude
  import opened Dates

  datatype Sensor = Landsat8 | Landsat7 | Landsat5

  /** First day the Landsat 8 collection is queried from. */
  const L8Start: Date := Date(2013, 1, 1)
  /** First day the Landsat 7 collection is queried from. */
  const L7Start: Date := Date(1999, 1, 1)
  /** Day the Landsat 5 collection is queried up to (exclusive). */
  const L5End: Date := Date(2012, 5, 1)

  /** A half-open date range, as `filterDate(start, end)` selects it. */
  datatype Window = Window(start: Date, end: Date)

  predicate InWindow(d: Date, w: Window)
  {
    !Before(d, w.start) && Before(d, w.end)
  }

  /** The period the source treats each sensor as delivering images. */
  predicate Operational(s: Sensor, d: Date)
  {
    match s
    case Landsat8 => !Before(d, L8Start)
    case Landsat7 => !Before(d, L7Start)
    case Landsat5 => Before(d, L5End)
  }

  // ---------------------------------------------------------------------
  // As written
  // ---------------------------------------------------------------------

  /** Landsat 8: queried only when `endDate > 2013-01-01`, and then from
      2013-01-01 whatever `begDate` is; otherwise nothing is bound. */
  function L8WindowAsWritten(beg: Date, end: Date): (r: Option<Window>)
    ensures r.Some? <==> Before(L8Start, end)
    ensures r.Some? ==> r.value.start == L8Start && r.value.end == end
  {
    if Before(L8Start, end) then Some(Window(L8Start, end)) else None
  }

  /** Landsat 7: the start is the EARLIER of `begDate` and 1999-01-01. */
  function L7WindowAsWritten(beg: Date, end: Date): (r: Window)
    ensures r.start == Min(beg, L7Start) && r.end == end
  {
    if Before(beg, L7Start) then Window(beg, end) else Window(L7Start, end)
  }

  /** Landsat 5: the end is the earlier of `endDate` and 2012-05-01; the
      start is always `begDate`. The source computes the intended window. */
  function L5Window(beg: Date, end: Date): (r: Window)
    ensures r.start == beg && r.end == Min(end, L5End)
  {
    if Before(end, L5End) then Window(beg, end) else Window(beg, L5End)
  }

  // ---------------------------------------------------------------------
  // Corrected
  // ---------------------------------------------------------------------

  function L8Window(beg: Date, end: Date): Window
  {
    Window(Max(beg, L8Start), end)
  }

  function L7Window(beg: Date, end: Date): Window
  {
    Window(Max(beg, L7Start), end)
  }

  /** The window each sensor is queried over in the corrected model. */
  function WindowOf(s: Sensor, beg: Date, end: Date): Window
  {
    match s
    case Landsat8 => L8Window(beg, end)
    case Landsat7 => L7Window(beg, end)
    case Landsat5 => L5Window(beg, end)
  }

  /** A date is in a sensor's corrected window exactly when it is in the
      requested range and the sensor is operational on it. */
  lemma WindowIsIntersection(s: Sensor, beg: Date, end: Date, d: Date)
    ensures InWindow(d, WindowOf(s, beg, end))
        <==> InWindow(d, Window(beg, end)) && Operational(s, d)
  {
    BeforeIsStrictTotalOrder(d, beg, L8Start);
    BeforeIsStrictTotalOrder(d, beg, L7Start);
    BeforeIsStrictTotalOrder(d, end, L5End);
  }

  /** A requested range that ends before a sensor's period begins selects
      nothing from that sensor. */
  lemma EarlyRangeSelectsNothing(s: Sensor, beg: Date, end: Date, d: Date)
    requires || (s == Landsat8 && !Before(L8Start, end))
             || (s == Landsat7 && !Before(L7Start, end))
    ensures !InWindow(d, WindowOf(s, beg, end))
  {
    WindowIsIntersection(s, beg, end, d);
    BeforeIsStrictTotalOrder(d, end, if s.Landsat8? then L8Start else L7Start);
  }

  // ---------------------------------------------------------------------
  // Where the two disagree
  // ---------------------------------------------------------------------

  /** Landsat 8 as written ignores `begDate`: a date the caller excluded is
      still exported. */
  lemma L8AsWrittenIgnoresBegin()
    ensures var w := L8WindowAsWritten(Date(2015, 1, 1), Date(2016, 1, 1));
            && w.Some?
            && InWindow(Date(2013, 6, 1), w.value)
            && !InWindow(Date(2013, 6, 1), Window(Date(2015, 1, 1), Date(2016, 1, 1)))
  {
  }

  /** Landsat 8 as written binds nothing for a range ending by 2013-01-01,
      where the corrected window is simply empty. */
  lemma L8AsWrittenUnboundForEarlyRange(beg: Date, end: Date, d: Date)
    requires !Before(L8Start, end)
    ensures L8WindowAsWritten(beg, end).None?
    ensures !InWindow(d, L8Window(beg, end))
  {
    EarlyRangeSelectsNothing(Landsat8, beg, end, d);
  }

  /** Landsat 7 as written agrees with the intended window only when the
      request starts exactly on 1999-01-01. */
  lemma L7AsWrittenAgreesOnlyAtLaunch(beg: Date, end: Date)
    ensures L7WindowAsWritten(beg, end) == L7Window(beg, end) <==> beg == L7Start
  {
    BeforeIsStrictTotalOrder(beg, L7Start, beg);
  }

  /** Landsat 7 as written: a request from 2015 admits a scene from 2000, and a
      request from 1990 admits scenes from before 1999. */
  lemma L7AsWrittenInverted()
    ensures InWindow(Date(2000, 1, 1), L7WindowAsWritten(Date(2015, 1, 1), Date(2016, 1, 1)))
    ensures !InWindow(Date(2000, 1, 1), Window(Date(2015, 1, 1), Date(2016, 1, 1)))
    ensures InWindow(Date(1995, 1, 1), L7WindowAsWritten(Date(1990, 1, 1), Date(2016, 1, 1)))
    ensures !Operational(Landsat7, Date(1995, 1, 1))
  {
  }
}
